=== FILE: README.md ===
# HectoClash rules in Dafny

HectoClash is a two-player arithmetic duel. Each round shows a six-digit
puzzle. A player must type an expression that uses the puzzle's digits in
order and evaluates to 100. This project models the game's deterministic rules
and proves properties about them:

- **Hectoc checker** (`hectoc.dfy`, module `Hectoc`), from `app.js`. It covers:
  - normalising the typed expression (`×` → `*`, `÷` → `/`, whitespace removed);
  - the left-to-right digit-order scan;
  - the character whitelist in front of the evaluator;
  - the tolerance test against 100.
- **Duel engine** (`duel.dfy`, module `Duel`), from `app.js`.
  - It covers starting a duel or a practice session, the round clock and
    time-up, the player's and the opponent's solves, moving to the next round
    or puzzle, achievements, and the end-of-game profile update with its flat
    ±32 rating change.
  - Each transition returns the new game record plus the one follow-up it
    schedules (`Next`). Timers still running from earlier calls are not
    tracked; "## Left out" says what that misses.
- **Matchmaking queue** (`matchmaking.dfy`, module `Matchmaking`), from
  `app.js`: join, leave, toggle, the queue clock, and the interval callback
  that reports a match.
- **Stored user rules** (`user_model.dfy`, module `UserModel`), from
  `game/user-model.js`: the ELO update with its floor of 100, and the `winRate`
  and `avgSolveTime` virtuals.
- **Sign-in form** (`login.dfy`, module `LoginForm`), from `Login.js`:
  - per-mode validation, including the e-mail pattern;
  - clearing a field's message while typing;
  - routing a server failure message to a field;
  - the mode switch.
- **Lobby helpers** (`lobby.dfy`, module `Lobby`), from `game/Lobby.js`:
  `formatTime`, the connection badge, the quick-match button and the
  statistics card.
- **Game record** (`game_record.dfy`, module `GameRecord`), from
  `game-model.js`: the `status` enum with its default, and the pre-save
  duration hook.
- **Shared helpers** (`common.dfy`, module `Common`):
  - `Option`, with `NullAs` for the value a null field takes in arithmetic;
  - JavaScript's `Math.round` (`RoundHalfUp`: halves go up);
  - the `\s` class and `trim`;
  - decimal rendering and parsing;
  - `padStart`, `includes`, and the `m:ss` clock template.

Things the code cannot compute by itself are parameters:

- the clock (`now`);
- `Math.random` draws (`draw`);
- generated puzzles and opponents;
- timer handles;
- the `new Function` evaluator (`run: string -> Evaluation`);
- the floating-point power `10^((opponent - own) / 400)` (`tenPow`);
- the server's reply to a sign-in.

Some behaviour of the code differs from what its own comments, messages
and data suggest. The model follows the code, and these lemmas make each
difference explicit:

- **Extra digits.** The comment at `app.js:630` says the check is that the
  expression uses all digits of the puzzle in order. The scan stops as soon
  as all six puzzle digits are matched, so later digits are never examined
  (`Hectoc.OrderIgnoresSuffix`). For puzzle `123456`, the text
  `1+2+3+4+5+6+79` passes the order check. It is accepted whenever the
  evaluator returns 100, even though it uses the extra digits 7 and 9.
- **Rating floor.** The stored user model floors the rating at 100
  (`game/user-model.js:127`, `UserModel.UpdateRating`). The in-browser
  `endGame` changes the rating by exactly ±`ratingChange` and has no such
  floor (`Duel.EndGameHasNoFloor`).
- **Round log.** Each logged round carries a `winner` field, but only
  `submitSolution` pushes a record, always with winner `'player'`
  (`app.js:709-714`). The opponent's solves raise the opponent's score
  without a record. So `playerScore == |rounds|` is the invariant that holds
  (`Duel.LogConsistent`).
- **`totalRounds`.** The built-in rules set `totalRounds: 3`
  (`app.js:42`), but no code reads it. Rounds in which nobody scores can
  continue past it (`Duel.NextRoundKeepsPlay`).
- **"First Win".** The achievement list describes it as "Win your first
  duel" (`app.js:47`). The code grants it on any accepted duel solution while
  `games == 0`, before any duel has been won (`Duel.FirstWinWithoutAWin`).
  A practice solution never grants it, because the practice path returns
  before `checkAchievements` is called (`app.js:694-697`).
- **Username length message.** The form rejects a username only above 20
  characters, so 20 passes, although the message at `Login.js:44` says "less
  than 20".

## Model

| member | source | states |
|---|---|---|
| `Common.RoundHalfUp` | game/user-model.js:124 | `Math.round` gives an integer within half a unit of x, with an exact half going up. |
| `Common.RoundHalfUpUnique` | game/user-model.js:124 | That integer is the only one within half a unit below or above x. |
| `Common.RoundHalfUpMonotone` | app.js:807 | Rounding never reverses the order of two numbers. |
| `Common.TrimStartIndex` | app.js:680 | Trimming starts at the first non-whitespace position, and everything before it is whitespace. |
| `Common.TrimEndIndex` | app.js:680 | Trimming ends just past the last non-whitespace position, never before the start, and everything after it is whitespace. |
| `Common.Trim` | app.js:680 | The trimmed text is no longer than the original and neither starts nor ends with whitespace. |
| `Common.TrimMiddle` | app.js:680 | The trimmed text is the part of the original between leading and trailing whitespace, and both dropped parts are whitespace only. |
| `Common.TrimUnique` | Login.js:39 | Any split into whitespace, a middle without whitespace at its ends, and whitespace gives that middle as the trimmed text. |
| `Common.TrimEmptyIffAllSpaces` | app.js:603 | An entry trims to nothing exactly when every character is JavaScript whitespace. |
| `Common.PercentInRange` | app.js:807 | A win rate computed as a rounded percentage of wins over games lies in 0..100 when wins do not exceed games. |
| `Common.MinutesSecondsReads` | game/Lobby.js:103-105 | The m:ss template for s ≥ 0 seconds has minutes without a leading zero, a colon, and exactly two second digits below 60. Reading it back gives minutes·60 + seconds = s. |
| `Hectoc.Clean` | app.js:628 | The normalised expression contains no `×`, no `÷` and no whitespace, and keeps the original's digits in order. |
| `Hectoc.CleanIsCharwise` | app.js:628 | Normalisation is character by character: `×` becomes `*`, `÷` becomes `/`, whitespace is dropped, and every other character is kept in place. |
| `Hectoc.CleanIdempotent` | app.js:628 | Normalising an already normalised expression changes nothing. |
| `Hectoc.SpacesIgnored` | app.js:628 | Inserting whitespace anywhere in an entry never changes the verdict. |
| `Hectoc.ScanOrder` | app.js:630-651 | The scan loop accepts exactly when the expression has at least as many digits as the puzzle and its first digits, as many as the puzzle has, spell the puzzle. A wrong digit rejects at once, and non-digits are skipped. |
| `Hectoc.OrderIgnoresSuffix` | app.js:635-651 | Once the order check passes, appending anything, including more digits, still passes it. |
| `Hectoc.EvaluateExpression` | app.js:662-677 | Text with a character outside the whitelist throws before evaluation. Whitelisted text gets exactly the evaluator's result. |
| `Hectoc.IsValidHectocSolution` | app.js:626-660 | An expression is valid exactly when the order check passes and evaluation yields a number within 0.001 of 100. A throwing or non-finite evaluation is invalid, and a valid expression's leading digits are the puzzle. |
| `Hectoc.ValidateSolution` | app.js:600-624 | A blank entry is never valid. Any other entry is valid exactly when the checker accepts it. |
| `Hectoc.RejectsForeignChar` | app.js:666-669 | A character that is neither whitespace, a glyph nor whitelisted makes the checker reject, whatever the evaluator would return. |
| `Hectoc.NormalisedVerdict` | app.js:626-677 | Already-normalised text is valid exactly when it is in order, whitelisted, and the evaluator returns a number close to 100 for that same text. |
| `Hectoc.RejectsStoredSolutionText` | app.js:34-38 | Each of the seven reference solutions stored for the three puzzles carries a trailing `= 100`. A player who types any of them exactly as listed, on its own puzzle, is rejected by the whitelist. |
| `Duel.StartRound` | app.js:532-535 | Starting a round resets the clock to the time limit and the start time to now. Nothing else changes, and the round log stays consistent. |
| `Duel.StartGame` | app.js:466-483 | A new duel starts in round 1 at 0–0 with an empty log, the time limit on the clock, and the given opponent and puzzle. |
| `Duel.StartPracticeMode` | app.js:485-498 | A practice session carries the given puzzle with a full clock. |
| `Duel.NextRoundOf` | app.js:759-773 | The next round increments the round counter by exactly one and installs the new puzzle. Scores and log are unchanged. |
| `Duel.NextPuzzleOf` | app.js:747-757 | The next puzzle replaces the puzzle and restarts the clock in the same round. The opponent, both scores and the round log are unchanged. |
| `Duel.TimerTick` | app.js:536-552 | Each tick takes one second off the clock and touches nothing else. Above zero nothing is scheduled. At zero the outcome is time-up's on the ticked record: practice moves to another puzzle, and a duel lets the opponent solve exactly when the draw is above 0.6 and otherwise moves to the next round. |
| `Duel.TimeUp` | app.js:775-792 | At time-up, practice moves to another puzzle. In a duel, a draw above 0.6 lets the opponent solve and anything else moves to the next round. |
| `Duel.OpponentSolved` | app.js:581-598 | Practice is unaffected. In a duel the opponent's score rises by exactly one with no round logged. The game ends exactly when that score reaches `roundsToWin`, and otherwise the next round follows. |
| `Duel.PlayerScores` | app.js:700-713 | The player's point raises the score by one and appends exactly one record with the round number, the solution, the solve time and winner `player`. |
| `Duel.SolveTime` | app.js:692 | The solve time is the milliseconds since the round started over 1000, exactly, and is non-negative once the round has started. |
| `Duel.AcceptedMeansValid` | app.js:680-691 | A submission goes through exactly when the trimmed entry is non-empty and is a valid solution for the current puzzle. |
| `Duel.SubmitSolution` | app.js:679-726 | Rejected entries change nothing, and a correct practice entry schedules the next puzzle. In a duel, a correct entry scores one point, logs one player-won round and checks achievements. It ends the game exactly when the player's score reaches `roundsToWin`, and otherwise moves to the next round. |
| `Duel.LateOpponentSolveAfterWin` | app.js:581-598 | A duel the player already won 2–1 still ends as a loss for the player if an opponent solve arrives, because `opponentSolved` looks only at the opponent's score. |
| `Duel.SubmissionEndsAtWinningScore` | app.js:721-725 | From a duel in play, the player's submission never makes the player lose. It either ends the game with the player on exactly `roundsToWin`, or leaves both scores below it. |
| `Duel.OpponentEndsAtWinningScore` | app.js:592-597 | From a duel in play, the opponent's solve never makes the player win. It either ends the game with the opponent on exactly `roundsToWin`, or leaves both scores below it. |
| `Duel.NextRoundKeepsPlay` | app.js:759-760 | Moving to the next round keeps a duel in play, with no bound from `totalRounds`. |
| `Duel.AddMissing` | app.js:739-744 | The old names stay first and unchanged, and only candidates follow them. The result holds exactly the old names and the candidates, and no duplicate is introduced. |
| `Duel.AddMissingInOrder` | app.js:739-744 | The appended part is exactly the candidates absent from the list and from earlier candidates, in candidate order. This is stated against an independent filter over the candidates. |
| `Duel.CheckAchievements` | app.js:728-745 | Only "Speed Demon" (solve under 10 s) and "First Win" (no game completed yet) can be added. Existing names are kept in order, no duplicate arises, and the rest of the profile is unchanged. |
| `Duel.CheckAchievementsIdempotent` | app.js:728-745 | A second identical check adds nothing. |
| `Duel.CheckAchievementsOrder` | app.js:728-745 | When one solve earns both, "Speed Demon" is appended before "First Win", after every name already held. |
| `Duel.FirstWinWithoutAWin` | app.js:736-738 | A player who solves one round of a first duel and then loses it holds "First Win" with no win recorded. |
| `Duel.CalculateRatingChange` | app.js:820-823 | The change is the rules' flat amount, gained on a win and lost on a loss. |
| `Duel.WinAndLossCancel` | app.js:809-823 | A win and a loss, in either order, bring the rating back to where it was. |
| `Duel.EndGameOf` | app.js:794-823 | The game count rises by one, and exactly one of wins or losses rises by one. The win rate becomes the rounded percentage of wins, and the rating moves by exactly `+ratingChange` on a win and `−ratingChange` on a loss. |
| `Duel.EndGamePreservesStats` | app.js:800-807 | If wins + losses = games and the win rate is a percentage before the game ends, both still hold afterwards. |
| `Duel.EndGameHasNoFloor` | app.js:809-811 | With the built-in rules, a loss at rating 20 leaves −12: the client applies no floor. |
| `Matchmaking.JoinQueue` | app.js:409-413 | Joining puts the player in the queue, starting now, with the match due 3 to 8 seconds later and the polling interval recorded. |
| `Matchmaking.LeaveQueue` | app.js:432-439 | Leaving takes the player out of the queue, with no target time and no interval. |
| `Matchmaking.ToggleQueue` | app.js:401-407 | Toggling flips `inQueue`, leaving when queued and joining otherwise. |
| `Matchmaking.ToggleTwiceLeaves` | app.js:401-439 | Join followed by toggle ends out of the queue with no target and no interval. |
| `Matchmaking.LeaveQueueIdempotent` | app.js:432-439 | Leaving twice is the same as leaving once. |
| `Matchmaking.ElapsedSeconds` | app.js:450 | The elapsed time is the whole seconds since joining, rounded down: 1000 times it is at most the elapsed milliseconds, and less than a second below them. A missing start time counts as 0. |
| `Matchmaking.QueueClock` | app.js:449-454 | The queue clock reads as m:ss of the whole seconds since joining. A negative elapsed time (a clock behind the start) uses the same template and shows a leading minus sign. |
| `Matchmaking.QueueTick` | app.js:420-427 | A tick reports a match exactly when the target time has come, and then leaves the queue. Otherwise the queue is unchanged. |
| `Matchmaking.MatchFoundWithinEightSeconds` | app.js:411-427 | After joining, no match is reported before 3 s, and one is always reported (leaving the queue) from 8 s on. |
| `UserModel.ExpectedScore` | game/user-model.js:122 | The expected score lies strictly between 0 and 1, and is one half exactly for equal ratings. |
| `UserModel.ActualScore` | game/user-model.js:123 | The actual score is 1 exactly for the result 'win', and 0 for every other result. |
| `UserModel.UpdateRating` | game/user-model.js:121-130 | The change is K·(actual − expected) rounded to the nearest integer. The stored rating moves by the change but never below 100, and the unclamped change is returned. |
| `UserModel.WinChangeInRange` | game/user-model.js:122-124 | A win changes the rating by between 0 and K. |
| `UserModel.LossChangeInRange` | game/user-model.js:122-124 | Any result other than 'win' changes the rating by between −K and 0. |
| `UserModel.EqualRatingsSixteen` | game/user-model.js:121-124 | Between equal ratings with K = 32, a win gives +16 and a loss −16. |
| `UserModel.ExpectedScoreDecreasing` | game/user-model.js:122 | The expected score falls as the opponent gets stronger. |
| `UserModel.ChangeMonotoneInOpponent` | game/user-model.js:122-124 | Against a stronger opponent the change is never smaller, for a win and for a loss alike. |
| `UserModel.ExchangeNearlyZeroSum` | game/user-model.js:122-124 | The winner's gain and the loser's loss in one game add up to 0, or to 1 when a half is rounded up. |
| `UserModel.WinRate` | game/user-model.js:90-93 | The win rate is 0 before any game, and otherwise the percentage of games won, rounded. |
| `UserModel.WinRateInRange` | game/user-model.js:90-93 | When wins do not exceed games, the win rate lies in 0..100. |
| `UserModel.AvgSolveTime` | game/user-model.js:96-99 | The average is 0 before any game, and otherwise the total solve time per game, rounded. |
| `UserModel.AvgSolveTimeBounded` | game/user-model.js:96-99 | If every game took between lo and hi, the rounded average lies between the rounded bounds. |
| `Lobby.FormatTime` | game/Lobby.js:101-106 | Over whole seconds: a missing value or 0 shows `--`, and a positive whole number of seconds shows as m:ss that reads back as that number. A negative number uses the same template and shows a leading minus sign. |
| `Lobby.FormatTimeInjective` | game/Lobby.js:101-106 | Two positive times format the same exactly when they are equal, and never as `--`. |
| `Lobby.GetConnectionStatus` | game/Lobby.js:113-117 | Not connected shows Disconnected whatever the queue says. Connected and queued shows the position, and otherwise Ready. The error badge appears exactly when disconnected. |
| `Lobby.HandleQuickMatch` | game/Lobby.js:83-94 | The button does nothing but warn when disconnected. Otherwise it leaves the queue exactly when queued and joins exactly when not. |
| `Lobby.QuickMatchFollowsStatus` | game/Lobby.js:83-117 | The button joins exactly when the badge says Ready, and leaves exactly when the badge shows a queue position. |
| `Lobby.WinRateDisplay` | game/Lobby.js:284-286 | The card shows 0 before any game, and otherwise the rounded percentage of games won. |
| `Lobby.WinRateDisplayMatchesUserModel` | game/Lobby.js:284-286 | The card's formula (on `gamesPlayed` and `gamesWon`) equals the user record's `winRate` virtual (on `gamesPlayed` and `wins`) on the same counts. |
| `Lobby.AvgSolveDisplay` | game/Lobby.js:292-294 | A missing or zero average shows `--`. Any other average is rounded first and the rounded seconds go through `formatTime`. So an average within half a second of 0, such as 0.3, also shows `--`, and an average of at least 0.5 shows m:ss that reads back as the rounded seconds. |
| `LoginForm.EmailPatternOfParts` | Login.js:49-50 | Any a@b.c whose three parts are non-empty and free of whitespace and `@` passes the e-mail pattern. |
| `LoginForm.EmailPatternParts` | Login.js:49-50 | Every address the pattern accepts splits as such an a@b.c. |
| `LoginForm.EmailPatternOneAt` | Login.js:49 | An accepted address has no whitespace and exactly one `@`. |
| `LoginForm.UsernameError` | Login.js:39-45 | A blank username is required. Otherwise fewer than 3 characters is too short and more than 20 is too long, so lengths 3 to 20 pass. |
| `LoginForm.EmailError` | Login.js:48-53 | The e-mail is checked only when registering and non-empty, and fails exactly when the pattern does not match. |
| `LoginForm.PasswordError` | Login.js:56-62 | Outside guest mode the password is required and needs at least 6 characters. It is never checked in guest mode. |
| `LoginForm.ConfirmError` | Login.js:64-70 | Only when registering, the confirmation is required and must equal the password. |
| `LoginForm.ValidateForm` | Login.js:35-75 | Each field gets its message exactly when its check fails, and the general key is never set. The form passes exactly when no message was produced. |
| `LoginForm.ValidateFormAccepts` | Login.js:35-75 | The form passes exactly when all of these hold: the username is non-blank with 3 to 20 characters; outside guest mode the password has at least 6 characters; when registering, a non-empty e-mail matches and the confirmation repeats the password. |
| `LoginForm.GuestChecksOnlyUsername` | Login.js:47-71 | In guest mode only the username can carry a message. |
| `LoginForm.HandleInputChange` | Login.js:19-33 | Typing stores the value in its own field and empties that field's message if one exists. All other fields and messages are untouched, and no key is added. |
| `LoginForm.RouteMessage` | Login.js:102-113 | A server message goes to the first of username, email and password that it contains, and otherwise to the general slot. |
| `LoginForm.UsernameMessageWins` | Login.js:104-105 | A message that mentions "username" goes to the username field, whatever else it says. |
| `LoginForm.RequestFor` | Login.js:87-100 | Login sends username and password, and guest sends the username. Register also sends the e-mail, as undefined when empty. |
| `LoginForm.HandleSubmit` | Login.js:77-119 | An invalid form shows its messages and sends nothing. Otherwise the mode's request is sent. A thrown error shows the general message, a failure with a message shows it alone under its routed field, and anything else leaves no message. |
| `LoginForm.SubmitSendsOnlyAcceptableForms` | Login.js:35-119 | A request goes out exactly when the field rules hold, and it is the mode's request. A rejected form always shows a message, and an accepted form answered with success shows none. |
| `LoginForm.SwitchMode` | Login.js:121-134 | Switching mode empties every field and clears all messages. |
| `LoginForm.FreshFormRejected` | Login.js:121-134 | A freshly reset form never passes: the username is required, and outside guest mode so is the password. |
| `GameRecord.ParseStatus` | game-model.js:42-46 | A status string is accepted only as the stored name of the status it yields. |
| `GameRecord.ParseStatusName` | game-model.js:42-46 | Every status reads back as itself from its stored name. |
| `GameRecord.StatusNameInjective` | game-model.js:44 | No two statuses share a stored name. |
| `GameRecord.StatusOnCreate` | game-model.js:42-46 | A new record without a status is `waiting`. A given status is accepted exactly when it is one of the four names, and is otherwise rejected. |
| `GameRecord.NewGame` | game-model.js:42-67 | A new record is waiting, started now, not ended, and has no duration. |
| `GameRecord.PreSave` | game-model.js:75-80 | The duration is recomputed only when `endedAt` was modified and both timestamps are set. It is then the elapsed milliseconds over 1000, rounded, and otherwise left as it was. Nothing else changes, and `next` is called exactly once. |
| `GameRecord.EndedGameDuration` | game-model.js:75-80 | A game ending after it started gets a non-negative duration within half a second of the elapsed time, and a later save that leaves `endedAt` alone keeps it. |

## Left out

- DOM updates, notifications, screen switching and `localStorage`: presentation
  and storage only. `saveUserData` and the loading of saved rules are not
  modelled; rules are a parameter.
- Timer scheduling (`setInterval`/`setTimeout`): transitions say what a
  callback does and return what they leave scheduled. They do not say when it
  runs.
  - As a consequence, the guard in `simulateOpponentProgress` is not modelled.
    That guard tests a `gameTimer` that is never reset, so a late opponent
    solve could fire after a round has ended. `currentGame` stays set until
    `exitGame` (`app.js:875-881`), so such a solve can even arrive after
    `endGame(true)`. On a duel the player won 2–1, `Duel.OpponentSolved` then
    gives `EndGame(false)` (`Duel.LateOpponentSolveAfterWin`), which would book a second game as a loss.
  - A correct practice entry schedules `nextPuzzle` without clearing the
    round interval (`app.js:694-697`, unlike the duel path at `app.js:701`).
    `nextPuzzle` then calls `startRound`, which starts a second interval, so
    the clock falls two seconds per second. At zero, `timeUp` clears only the
    newest handle (`app.js:776`). The older interval keeps calling `timeUp`
    every second, and each call schedules another `nextPuzzle`. The model
    returns only the one `NextPuzzle` that `Duel.SubmitSolution` schedules.
  - For the same reason, a second submission within one round is not
    excluded.
- `Math.random`, `generatePuzzle`, `generateOpponent` and the simulated
  opponent's timing: draws, puzzles and opponents are parameters.
- The `new Function` evaluator is the parameter `run`.
- Hectoc.EvaluateExpression: does not model the `^` → `Math.pow` rewrite.
  That rewrite only removes `^` and inserts `Math.pow(`, `,`, ` ` and `)`, all
  of which are whitelisted, so the whitelist verdict is the same before and
  after it. The model applies `run` to the text before the rewrite, and the
  rewrite's effect on the value is part of what `run` stands for.
- Lobby.FormatTime: takes whole seconds only. The average-time card rounds
  before calling it (`game/Lobby.js:293`), but the fastest-solve card passes
  `fastestSolve` unrounded (`game/Lobby.js:301`). Solve times are fractional
  (`app.js:692`, and `solveTime: Number` at `game-model.js:32`), so a fastest
  solve of 12.5 shows as `0:12.5`. That display, and the decimal rendering
  of fractional numbers it needs, is not modelled.
- Floating-point arithmetic: ratios, the 0.001 tolerance and `Math.round` are
  computed over exact reals. `10^x` is the parameter `tenPow`, which is positive.
- String lengths count Unicode characters. JavaScript counts UTF-16 code
  units, which differ only for characters outside the Basic Multilingual
  Plane.
- bcrypt hashing, `comparePassword`, and Mongoose schema plumbing and
  persistence: these are foreign library calls.
- React rendering, hooks, and the axios/socket calls behind `login`,
  `register`, `guestLogin`, `joinQueue` and `leaveQueue`: the sign-in reply
  and the socket's connection and queue state are parameters.
- `backend-server.js` and its `GameManager`: the server-side matchmaking and
  session engine are not part of this model.
- The remaining lobby and spectator views in `app.js`
  (`showLobbyView`, leaderboards, spectating): display only.

=== FILE: common.dfy ===
/** Helpers shared by every part of the model: an Option type, JavaScript's
    Math.round over reals, the JavaScript whitespace class and trim, decimal
    rendering of integers, padding and substring search. */
module Common {

  /** A field that may be null. */
  datatype Option<T> = None | Some(value: T) {
    /** The value the field takes in JavaScript arithmetic or comparison,
        where null reads as `zero`. */
    function NullAs(zero: T): T {
      if Some? then value else zero
    }
  }

  /** Math.round: the nearest integer, with halves rounded up (towards +infinity). */
  function RoundHalfUp(x: real): (r: int)
    ensures r as real - 0.5 <= x < r as real + 0.5
  {
    (x + 0.5).Floor
  }

  /** The nearest integer is unique: any n within half a unit below/above x is Math.round(x). */
  lemma RoundHalfUpUnique(x: real, n: int)
    requires n as real - 0.5 <= x < n as real + 0.5
    ensures RoundHalfUp(x) == n
  {
  }

  /** Math.round is monotone. */
  lemma RoundHalfUpMonotone(x: real, y: real)
    requires x <= y
    ensures RoundHalfUp(x) <= RoundHalfUp(y)
  {
  }

  /** Math.round((part / whole) * 100): a ratio as a whole-number percentage. */
  function Percent(part: int, whole: int): (r: int)
    requires whole > 0
    ensures r as real - 0.5 <= (part as real / whole as real) * 100.0 < r as real + 0.5
  {
    RoundHalfUp((part as real / whole as real) * 100.0)
  }

  /** A percentage of a part that does not exceed the whole lies in 0..100. */
  lemma PercentInRange(part: nat, whole: nat)
    requires 0 < whole && part <= whole
    ensures 0 <= Percent(part, whole) <= 100
  {
    var q := part as real / whole as real;
    assert q * whole as real == part as real;
    assert 0.0 <= q <= 1.0;
  }

  /** The characters JavaScript's regular-expression class `\s` matches, which
      are also the characters String.prototype.trim removes. */
  predicate IsJsSpace(c: char) {
    if c < '\U{0080}' then
      c == ' ' || '\t' <= c <= '\r'   // tab, line feed, vertical tab, form feed, carriage return
    else
      || c == '\U{00A0}' || c == '\U{1680}' || ('\U{2000}' <= c <= '\U{200A}')
      || c == '\U{2028}' || c == '\U{2029}' || c == '\U{202F}' || c == '\U{205F}'
      || c == '\U{3000}' || c == '\U{FEFF}'
  }

  /** s is whitespace only. */
  predicate AllSpaces(s: string) {
    SpacesIn(s, 0, |s|)
  }

  /** The regular-expression class `\d`: ASCII digits only. */
  predicate IsDigit(c: char) {
    '0' <= c <= '9'
  }

  predicate AllDigits(s: string) {
    forall i :: 0 <= i < |s| ==> IsDigit(s[i])
  }

  /** The characters of s at positions lo up to hi are all whitespace. */
  predicate SpacesIn(s: string, lo: nat, hi: nat)
    requires lo <= hi <= |s|
  {
    forall x :: lo <= x < hi ==> IsJsSpace(s[x])
  }

  /** Where the text starts once leading whitespace is dropped: the first
      position from i on that is not whitespace, or the end. */
  function TrimStartIndex(s: string, i: nat): (k: nat)
    requires i <= |s|
    ensures i <= k <= |s| && SpacesIn(s, i, k)
    ensures k == |s| || !IsJsSpace(s[k])
    decreases |s| - i
  {
    if i < |s| && IsJsSpace(s[i]) then TrimStartIndex(s, i + 1) else i
  }

  /** Where the text ends once trailing whitespace is dropped, not going
      below lo: just past the last position before j that is not whitespace. */
  function TrimEndIndex(s: string, lo: nat, j: nat): (e: nat)
    requires lo <= j <= |s|
    ensures lo <= e <= j && SpacesIn(s, e, j)
    ensures e == lo || !IsJsSpace(s[e - 1])
  {
    if j > lo && IsJsSpace(s[j - 1]) then TrimEndIndex(s, lo, j - 1) else j
  }

  /** String.prototype.trim: whitespace dropped at both ends, so the result
      neither starts nor ends with whitespace. */
  function Trim(s: string): (r: string)
    ensures |r| <= |s|
    ensures r == [] || (!IsJsSpace(r[0]) && !IsJsSpace(r[|r| - 1]))
  {
    var k := TrimStartIndex(s, 0);
    var e := TrimEndIndex(s, k, |s|);
    s[k..e]
  }

  /** What trim keeps is the middle s[k..e] of s, with k and e at the first
      and past the last non-space character, and what it drops at both ends
      is whitespace. */
  lemma TrimMiddle(s: string) returns (k: nat, e: nat)
    ensures k <= e <= |s| && Trim(s) == s[k..e]
    ensures SpacesIn(s, 0, k) && SpacesIn(s, e, |s|)
    ensures k < e ==> !IsJsSpace(s[k]) && !IsJsSpace(s[e - 1])
  {
    k := TrimStartIndex(s, 0);
    e := TrimEndIndex(s, k, |s|);
    if k < e {
      assert Trim(s)[0] == s[k];
      assert Trim(s)[e - k - 1] == s[e - 1];
    }
  }

  /** Trim is determined by its contract: any split of s into whitespace,
      a middle with non-space ends, and whitespace yields that middle. */
  lemma TrimUnique(s: string, i: nat, j: nat)
    requires i <= j <= |s|
    requires SpacesIn(s, 0, i) && SpacesIn(s, j, |s|)
    requires i == j || (!IsJsSpace(s[i]) && !IsJsSpace(s[j - 1]))
    ensures Trim(s) == s[i..j]
  {
    // the first non-space of s is at i, and the last one at j - 1
    var k, e := TrimMiddle(s);
  }

  /** A string trims to the empty string exactly when it is all whitespace. */
  lemma TrimEmptyIffAllSpaces(s: string)
    ensures Trim(s) == [] <==> AllSpaces(s)
  {
    var k, e := TrimMiddle(s);
    if Trim(s) == [] {
      if k < |s| { assert IsJsSpace(s[k]); }
    } else {
      assert !IsJsSpace(s[k]);
    }
  }

  function DigitChar(d: nat): (c: char)
    requires d < 10
    ensures IsDigit(c)
  {
    ('0' as int + d) as char
  }

  function DigitValue(c: char): (d: nat)
    requires IsDigit(c)
    ensures d < 10 && DigitChar(d) == c
  {
    (c as int - '0' as int) as nat
  }

  /** Number.prototype.toString for a non-negative integer: its decimal digits, with no leading zero. */
  function NatToString(n: nat): (s: string)
    ensures |s| >= 1 && AllDigits(s)
    ensures |s| > 1 ==> s[0] != '0'
    decreases n
  {
    if n < 10 then [DigitChar(n)] else NatToString(n / 10) + [DigitChar(n % 10)]
  }

  /** Reads a string of decimal digits back as a number. */
  function ParseNat(s: string): nat
    requires AllDigits(s)
  {
    if s == [] then 0 else ParseNat(s[..|s| - 1]) * 10 + DigitValue(s[|s| - 1])
  }

  /** Reading back the decimal rendering of n gives n. */
  lemma {:induction false} ParseNatToString(n: nat)
    ensures ParseNat(NatToString(n)) == n
    decreases n
  {
    var s := NatToString(n);
    if n >= 10 {
      ParseNatToString(n / 10);
      assert s[..|s| - 1] == NatToString(n / 10);
      assert DigitValue(s[|s| - 1]) == n % 10;
    } else {
      assert DigitValue(s[0]) == n;
    }
  }

  /** Number.prototype.toString for an integer. */
  function IntToString(i: int): (s: string)
    ensures |s| >= 1
    ensures i >= 0 ==> s == NatToString(i)
    ensures i < 0 ==> s[0] == '-' && s[1..] == NatToString(-i)
  {
    if i < 0 then "-" + NatToString(-i) else NatToString(i)
  }

  /** String.prototype.padStart(width, fill) with a one-character fill. */
  function PadStart(s: string, width: nat, fill: char): (r: string)
    ensures |r| == if |s| >= width then |s| else width
    ensures r[|r| - |s|..] == s
    ensures forall i :: 0 <= i < |r| - |s| ==> r[i] == fill
    decreases width - |s|
  {
    if |s| >= width then s else PadStart([fill] + s, width, fill)
  }

  /** JavaScript's `%` with a positive divisor: the remainder takes the sign
      of the dividend (truncated division), unlike Dafny's `%`. */
  function JsRem(a: int, b: int): (r: int)
    requires b > 0
    ensures -b < r < b
    ensures a >= 0 ==> r == a % b
    ensures a < 0 ==> r <= 0
  {
    if a >= 0 then a % b else -((-a) % b)
  }

  /** The template `${Math.floor(s / 60)}:${(s % 60).toString().padStart(2, '0')}`
      shared by the queue clock and the lobby's formatTime. */
  function MinutesSeconds(s: int): string {
    IntToString(s / 60) + ":" + PadStart(IntToString(JsRem(s, 60)), 2, '0')
  }

  /** text reads as the clock m:ss for s seconds: decimal minutes with no
      leading zero, a colon, and exactly two digits of seconds below 60, with
      minutes * 60 + seconds == s. */
  predicate ClockReads(text: string, s: int) {
    && |text| >= 4
    && text[|text| - 3] == ':'
    && AllDigits(text[..|text| - 3])
    && AllDigits(text[|text| - 2..])
    && (|text| > 4 ==> text[0] != '0')
    && ParseNat(text[|text| - 2..]) < 60
    && ParseNat(text[..|text| - 3]) * 60 + ParseNat(text[|text| - 2..]) == s
  }

  /** The seconds field: any value below 60 padded to exactly two digits reads back as itself. */
  lemma PaddedSecondsReads(sec: nat)
    requires sec < 60
    ensures var t := PadStart(NatToString(sec), 2, '0');
      |t| == 2 && AllDigits(t) && ParseNat(t) == sec
  {
    if sec < 10 {
      PaddedOneDigit(sec);
    } else {
      PaddedTwoDigits(sec);
    }
  }

  lemma PaddedTwoDigits(n: nat)
    requires 10 <= n < 100
    ensures var t := PadStart(NatToString(n), 2, '0');
      |t| == 2 && AllDigits(t) && ParseNat(t) == n
  {
    var u := NatToString(n);
    assert |NatToString(n / 10)| == 1;
    assert |u| == 2;
    assert PadStart(u, 2, '0') == u;
    ParseNatToString(n);
  }

  lemma PaddedOneDigit(d: nat)
    requires d < 10
    ensures var t := PadStart(NatToString(d), 2, '0');
      |t| == 2 && AllDigits(t) && ParseNat(t) == d
  {
    var c := DigitChar(d);
    assert NatToString(d) == [c];
    var t := ['0', c];
    assert PadStart([c], 2, '0') == PadStart(t, 2, '0') by {
      assert ['0'] + [c] == t;
    }
    assert PadStart(t, 2, '0') == t;
    assert t[..1] == ['0'];
    assert ParseNat(t) == ParseNat(['0']) * 10 + DigitValue(c);
    assert ParseNat(['0']) == 0 by {
      assert ['0'][..0] == [];
    }
  }

  /** Joining a minutes field and a two-digit seconds field with ':' gives a clock reading. */
  lemma ClockReadsOfFields(mText: string, secText: string, s: int)
    requires |mText| >= 1 && AllDigits(mText) && (|mText| > 1 ==> mText[0] != '0')
    requires |secText| == 2 && AllDigits(secText) && ParseNat(secText) < 60
    requires ParseNat(mText) * 60 + ParseNat(secText) == s
    ensures ClockReads(mText + ":" + secText, s)
  {
    var text := mText + ":" + secText;
    assert text[..|text| - 3] == mText;
    assert text[|text| - 2..] == secText;
  }

  /** For a non-negative number of seconds the m:ss template reads back as that number. */
  lemma MinutesSecondsReads(s: nat)
    ensures ClockReads(MinutesSeconds(s), s)
  {
    var m := s / 60;
    var sec := s % 60;
    var mText := IntToString(m);
    var secText := PadStart(IntToString(JsRem(s, 60)), 2, '0');
    assert mText == NatToString(m);
    assert secText == PadStart(NatToString(sec), 2, '0');
    ParseNatToString(m);
    PaddedSecondsReads(sec);
    ClockReadsOfFields(mText, secText, s);
    assert MinutesSeconds(s) == mText + ":" + secText;
  }

  /** String.prototype.includes. */
  predicate Contains(s: string, t: string) {
    exists i | 0 <= i <= |s| - |t| :: OccursAt(s, t, i)
  }

  /** t occurs in s starting at index i. */
  predicate OccursAt(s: string, t: string, i: int) {
    0 <= i && i + |t| <= |s| && s[i..i + |t|] == t
  }
}

=== FILE: duel.dfy ===
/** The client-side duel engine of app.js: the game record, the transitions
    that buttons and timers fire (start, tick, time-up, a solution, the
    opponent's solve, the next round or puzzle), the end-of-game update of the
    player's profile, and achievements.

    Timers only decide when a transition runs. Each transition therefore
    returns, besides the new state, what it leaves scheduled (`Next`); random
    draws, the clock and the next puzzle are parameters. */
module Duel {
  import opened Common
  import Hectoc

  /** gameData.gameRules. */
  datatype Rules = Rules(timeLimit: int, roundsToWin: int, totalRounds: int, startingRating: int, ratingChange: int)

  /** The built-in rules (app.js lines 39-45); a copy saved in local storage may replace them. */
  const DefaultRules: Rules := Rules(60, 2, 3, 1200, 32)

  /** The locally stored player (currentUser). */
  datatype Profile = Profile(
    username: string,
    rating: int,
    games: nat,
    wins: nat,
    losses: nat,
    winRate: int,
    avgTime: int,
    achievements: seq<string>,
    isGuest: bool)

  datatype Opponent = Opponent(username: string, rating: int)

  /** The `winner` of a logged round. The log's shape admits either side;
      that only the player's rounds are ever logged is what LogConsistent
      states and every transition keeps. */
  datatype Side = PlayerSide | OpponentSide

  /** One entry of currentGame.rounds. */
  datatype RoundRecord = RoundRecord(round: int, playerSolution: string, playerTime: real, winner: Side)

  /** currentGame: a practice session or a duel against an opponent. */
  datatype Game =
    | Practice(puzzle: string, timeLeft: int, roundStartTime: int)
    | Match(
        opponent: Opponent,
        currentRound: int,
        playerScore: int,
        opponentScore: int,
        puzzle: string,
        timeLeft: int,
        roundStartTime: int,
        rounds: seq<RoundRecord>)

  /** What a transition leaves to run next, immediately or after a timeout. */
  datatype Next = Stay | NextPuzzle | NextRound | EndGame(playerWon: bool) | OpponentSolves

  datatype Step = Step(game: Game, next: Next)

  datatype Submission = Submission(user: Profile, game: Game, next: Next)

  datatype GameOver = GameOver(user: Profile, ratingChange: int)

  const SpeedDemon: string := "Speed Demon"
  const FirstWin: string := "First Win"

  // ---------------------------------------------------------------------------
  // Invariants
  // ---------------------------------------------------------------------------

  /** The round log of a duel agrees with the score: only the player's wins are
      logged, one record per point, each with a round number already reached. */
  predicate LogConsistent(g: Game) {
    g.Match? ==>
      && g.currentRound >= 1
      && g.opponentScore >= 0
      && g.playerScore == |g.rounds|
      && forall i :: 0 <= i < |g.rounds| ==>
           g.rounds[i].winner == PlayerSide && 1 <= g.rounds[i].round <= g.currentRound
  }

  /** Two game records agree on everything except the round clock. */
  predicate SameExceptClock(a: Game, b: Game) {
    && a.Practice? == b.Practice?
    && a.puzzle == b.puzzle
    && (a.Match? ==>
          && a.opponent == b.opponent
          && a.currentRound == b.currentRound
          && a.playerScore == b.playerScore
          && a.opponentScore == b.opponentScore
          && a.rounds == b.rounds)
  }

  /** The counters of a profile agree: every game is a win or a loss, and the
      stored win rate is a percentage. */
  predicate StatsConsistent(u: Profile) {
    u.wins + u.losses == u.games && 0 <= u.winRate <= 100
  }

  predicate NoDuplicates(s: seq<string>) {
    forall i, j :: 0 <= i < j < |s| ==> s[i] != s[j]
  }

  // ---------------------------------------------------------------------------
  // Starting games and rounds
  // ---------------------------------------------------------------------------

  /** startRound (app.js lines 532-548): resets the round clock. */
  function StartRound(g: Game, rules: Rules, now: int): (r: Game)
    ensures r.timeLeft == rules.timeLimit && r.roundStartTime == now
    ensures SameExceptClock(g, r)
    ensures LogConsistent(g) ==> LogConsistent(r)
  {
    g.(timeLeft := rules.timeLimit, roundStartTime := now)
  }

  /** startGame (app.js lines 466-483): a fresh duel in round 1 at 0-0. */
  function StartGame(rules: Rules, opponent: Opponent, puzzle: string, now: int): (r: Game)
    ensures r.Match? && r.opponent == opponent && r.puzzle == puzzle
    ensures r.currentRound == 1 && r.playerScore == 0 && r.opponentScore == 0 && r.rounds == []
    ensures r.timeLeft == rules.timeLimit && r.roundStartTime == now
    ensures LogConsistent(r)
  {
    StartRound(Match(opponent, 1, 0, 0, puzzle, rules.timeLimit, now, []), rules, now)
  }

  /** startPracticeMode (app.js lines 485-498). */
  function StartPracticeMode(rules: Rules, puzzle: string, now: int): (r: Game)
    ensures r.Practice? && r.puzzle == puzzle
    ensures r.timeLeft == rules.timeLimit && r.roundStartTime == now
  {
    StartRound(Practice(puzzle, rules.timeLimit, now), rules, now)
  }

  /** nextRound (app.js lines 759-773): the round counter moves on by one with a new puzzle. */
  function NextRoundOf(g: Game, puzzle: string, rules: Rules, now: int): (r: Game)
    requires g.Match?
    ensures r.Match? && r.currentRound == g.currentRound + 1 && r.puzzle == puzzle
    ensures r.playerScore == g.playerScore && r.opponentScore == g.opponentScore
    ensures r.rounds == g.rounds && r.opponent == g.opponent
    ensures r.timeLeft == rules.timeLimit && r.roundStartTime == now
    ensures LogConsistent(g) ==> LogConsistent(r)
  {
    StartRound(g.(currentRound := g.currentRound + 1, puzzle := puzzle), rules, now)
  }

  /** nextPuzzle (app.js lines 747-757): a new puzzle in the same round. */
  function NextPuzzleOf(g: Game, puzzle: string, rules: Rules, now: int): (r: Game)
    ensures r.puzzle == puzzle && r.Practice? == g.Practice?
    ensures g.Match? ==> r.currentRound == g.currentRound && r.rounds == g.rounds
    ensures SameExceptClock(g.(puzzle := puzzle), r)
    ensures r.timeLeft == rules.timeLimit && r.roundStartTime == now
    ensures LogConsistent(g) ==> LogConsistent(r)
  {
    StartRound(g.(puzzle := puzzle), rules, now)
  }

  // ---------------------------------------------------------------------------
  // Clock
  // ---------------------------------------------------------------------------

  /** timeUp (app.js lines 775-792): practice moves to another puzzle; in a
      duel a draw above 0.6 lets the opponent solve, otherwise the next round
      follows. The game record itself is untouched. */
  function TimeUp(g: Game, draw: real): (r: Step)
    ensures r.game == g
    ensures g.Practice? ==> r.next == NextPuzzle
    ensures g.Match? ==> (r.next == OpponentSolves <==> draw > 0.6)
    ensures g.Match? ==> (r.next == NextRound <==> draw <= 0.6)
  {
    if g.Practice? then Step(g, NextPuzzle)
    else if draw > 0.6 then Step(g, OpponentSolves)
    else Step(g, NextRound)
  }

  /** One tick of the round interval (app.js lines 536-542 with updateTimer,
      lines 550-566): the clock loses a second, and at zero time is up. */
  function TimerTick(g: Game, draw: real): (r: Step)
    ensures r.game.timeLeft == g.timeLeft - 1
    ensures SameExceptClock(g, r.game) && r.game.roundStartTime == g.roundStartTime
    ensures r.game.timeLeft > 0 ==> r.next == Stay
    ensures r.game.timeLeft <= 0 ==> r.next != Stay && r.next != EndGame(true) && r.next != EndGame(false)
    ensures r.game.timeLeft <= 0 ==> r == TimeUp(g.(timeLeft := g.timeLeft - 1), draw)
    ensures r.game.timeLeft <= 0 && g.Practice? ==> r.next == NextPuzzle
    ensures r.game.timeLeft <= 0 && g.Match? ==> (r.next == OpponentSolves <==> draw > 0.6)
    ensures r.game.timeLeft <= 0 && g.Match? ==> (r.next == NextRound <==> draw <= 0.6)
    ensures LogConsistent(g) ==> LogConsistent(r.game)
  {
    var ticked := g.(timeLeft := g.timeLeft - 1);
    if ticked.timeLeft <= 0 then TimeUp(ticked, draw) else Step(ticked, Stay)
  }

  // ---------------------------------------------------------------------------
  // Scoring
  // ---------------------------------------------------------------------------

  /** opponentSolved (app.js lines 581-598): nothing in practice; in a duel the
      opponent scores one point, no round is logged, and the game ends exactly
      when the opponent has reached the winning score. */
  function OpponentSolved(g: Game, rules: Rules): (r: Step)
    ensures g.Practice? ==> r == Step(g, Stay)
    ensures g.Match? ==> r.game == g.(opponentScore := g.opponentScore + 1)
    ensures g.Match? ==> (r.next == EndGame(false) <==> g.opponentScore + 1 >= rules.roundsToWin)
    ensures g.Match? ==> (r.next == NextRound <==> g.opponentScore + 1 < rules.roundsToWin)
    ensures LogConsistent(g) ==> LogConsistent(r.game)
  {
    match g
    case Practice(_, _, _) => Step(g, Stay)
    case Match(_, _, _, _, _, _, _, _) =>
      var scored := g.(opponentScore := g.opponentScore + 1);
      if scored.opponentScore >= rules.roundsToWin then Step(scored, EndGame(false))
      else Step(scored, NextRound)
  }

  /** Elapsed round time in seconds, as `(Date.now() - roundStartTime) / 1000`. */
  function SolveTime(g: Game, now: int): (t: real)
    ensures t * 1000.0 == (now - g.roundStartTime) as real
    ensures now >= g.roundStartTime ==> t >= 0.0
  {
    (now - g.roundStartTime) as real / 1000.0
  }

  /** The player's point in a duel: the score goes up by one and the round is
      logged as won by the player. */
  function PlayerScores(g: Game, solution: string, solveTime: real): (r: Game)
    requires g.Match?
    ensures r.Match? && r.playerScore == g.playerScore + 1 && r.opponentScore == g.opponentScore
    ensures r.rounds == g.rounds + [RoundRecord(g.currentRound, solution, solveTime, PlayerSide)]
    ensures r == g.(playerScore := r.playerScore, rounds := r.rounds)
    ensures LogConsistent(g) ==> LogConsistent(r)
  {
    var r := g.(playerScore := g.playerScore + 1,
                rounds := g.rounds + [RoundRecord(g.currentRound, solution, solveTime, PlayerSide)]);
    assert forall i :: 0 <= i < |g.rounds| ==> r.rounds[i] == g.rounds[i];
    r
  }

  /** Whether submitSolution accepts the text in the input box: after
      trimming it is non-empty and validateSolution passes it. */
  predicate Accepted(input: string, puzzle: string, run: string -> Hectoc.Evaluation) {
    var e := Trim(input);
    e != [] && Hectoc.ValidateSolution(e, puzzle, run)
  }

  /** An entry is accepted exactly when its trimmed text is non-empty and is a
      valid Hectoc solution for the puzzle. */
  lemma AcceptedMeansValid(input: string, puzzle: string, run: string -> Hectoc.Evaluation)
    ensures Accepted(input, puzzle, run) <==>
      Trim(input) != [] && Hectoc.IsValidHectocSolution(Trim(input), puzzle, run)
  {
    var e := Trim(input);
    if e != [] {
      assert !IsJsSpace(e[0]);
    }
  }

  /** submitSolution (app.js lines 679-726). The entry is trimmed; a blank or
      invalid entry changes nothing. A valid one in practice schedules the next
      puzzle. In a duel it gives the player one point, logs exactly one round
      won by the player, checks achievements, and ends the game exactly when
      the player has reached the winning score, otherwise moves to the next
      round. */
  function SubmitSolution(rules: Rules, user: Profile, g: Game, input: string, run: string -> Hectoc.Evaluation, now: int): (r: Submission)
    ensures !Accepted(input, g.puzzle, run) ==> r == Submission(user, g, Stay)
    ensures Accepted(input, g.puzzle, run) && g.Practice? ==> r == Submission(user, g, NextPuzzle)
    ensures Accepted(input, g.puzzle, run) && g.Match? ==>
      r.game == PlayerScores(g, Trim(input), SolveTime(g, now))
    ensures Accepted(input, g.puzzle, run) && g.Match? ==> r.user == CheckAchievements(user, SolveTime(g, now))
    ensures Accepted(input, g.puzzle, run) && g.Match? ==>
      (r.next == EndGame(true) <==> g.playerScore + 1 >= rules.roundsToWin)
    ensures Accepted(input, g.puzzle, run) && g.Match? ==>
      (r.next == NextRound <==> g.playerScore + 1 < rules.roundsToWin)
    ensures LogConsistent(g) ==> LogConsistent(r.game)
  {
    var expression := Trim(input);
    if expression == [] then Submission(user, g, Stay)
    else if !Hectoc.ValidateSolution(expression, g.puzzle, run) then Submission(user, g, Stay)
    else
      var solveTime := SolveTime(g, now);
      match g
      case Practice(_, _, _) => Submission(user, g, NextPuzzle)
      case Match(_, _, _, _, _, _, _, _) =>
        var scored := PlayerScores(g, expression, solveTime);
        var next := if scored.playerScore >= rules.roundsToWin then EndGame(true) else NextRound;
        Submission(CheckAchievements(user, solveTime), scored, next)
  }

  /** A duel still in play: neither side has reached the winning score. */
  predicate InPlay(g: Game, rules: Rules) {
    g.Match? ==> g.playerScore < rules.roundsToWin && g.opponentScore < rules.roundsToWin
  }

  /** From a duel in play, a submission either ends the game with the player on
      exactly the winning score, or leaves the duel in play. */
  lemma SubmissionEndsAtWinningScore(rules: Rules, user: Profile, g: Game, input: string, run: string -> Hectoc.Evaluation, now: int)
    requires g.Match? && InPlay(g, rules)
    ensures var r := SubmitSolution(rules, user, g, input, run, now);
      && (r.next == EndGame(true) ==> r.game.playerScore == rules.roundsToWin && r.game.opponentScore < rules.roundsToWin)
      && (r.next != EndGame(true) ==> InPlay(r.game, rules))
      && r.next != EndGame(false)
  {
  }

  /** From a duel in play, the opponent's solve either ends the game with the
      opponent on exactly the winning score, or leaves the duel in play. */
  lemma OpponentEndsAtWinningScore(g: Game, rules: Rules)
    requires g.Match? && InPlay(g, rules)
    ensures var r := OpponentSolved(g, rules);
      && (r.next == EndGame(false) ==> r.game.opponentScore == rules.roundsToWin && r.game.playerScore < rules.roundsToWin)
      && (r.next != EndGame(false) ==> InPlay(r.game, rules))
      && r.next != EndGame(true)
  {
  }

  /** Moving to the next round keeps a duel in play. The round counter is not
      compared with totalRounds anywhere, so rounds without a solve can run past it. */
  lemma NextRoundKeepsPlay(g: Game, puzzle: string, rules: Rules, now: int)
    requires g.Match? && InPlay(g, rules)
    ensures InPlay(NextRoundOf(g, puzzle, rules, now), rules)
    ensures NextRoundOf(g, puzzle, rules, now).currentRound == g.currentRound + 1
  {
  }

  // ---------------------------------------------------------------------------
  // Achievements
  // ---------------------------------------------------------------------------

  /** The forEach of checkAchievements: appends each candidate the list does not yet hold. */
  function AddMissing(list: seq<string>, candidates: seq<string>): (r: seq<string>)
    ensures |r| >= |list| && r[..|list|] == list
    ensures forall i :: |list| <= i < |r| ==> r[i] in candidates
    ensures forall a :: a in r <==> a in list || a in candidates
    ensures NoDuplicates(list) ==> NoDuplicates(r)
    decreases |candidates|
  {
    if candidates == [] then list
    else
      var next := if candidates[0] in list then list else list + [candidates[0]];
      var r := AddMissing(next, candidates[1..]);
      assert r[..|list|] == next[..|list|];
      r
  }

  /** The names AddMissing is meant to append, read off the candidates
      independently: each candidate, in candidate order, that is neither in
      the list nor an earlier candidate. */
  function NewNames(list: seq<string>, candidates: seq<string>): seq<string>
    decreases |candidates|
  {
    if candidates == [] then []
    else
      var init := candidates[..|candidates| - 1];
      var last := candidates[|candidates| - 1];
      NewNames(list, init) + (if last in list || last in init then [] else [last])
  }

  /** Adding two batches of candidates one after the other is adding them together. */
  lemma {:induction false} AddMissingAppend(list: seq<string>, a: seq<string>, b: seq<string>)
    ensures AddMissing(list, a + b) == AddMissing(AddMissing(list, a), b)
    decreases |a|
  {
    if a != [] {
      assert (a + b)[0] == a[0] && (a + b)[1..] == a[1..] + b;
      var next := if a[0] in list then list else list + [a[0]];
      AddMissingAppend(next, a[1..], b);
    } else {
      assert a + b == b;
    }
  }

  lemma ConcatAssoc(a: seq<string>, b: seq<string>, c: seq<string>)
    ensures (a + b) + c == a + (b + c)
  {
  }

  /** One candidate is appended exactly when it is absent. */
  lemma AddMissingOne(list: seq<string>, c: string)
    ensures AddMissing(list, [c]) == if c in list then list else list + [c]
  {
    assert [c][1..] == [];
  }

  /** AddMissing appends exactly the new names, in the order the candidates
      give them. */
  lemma {:induction false} AddMissingInOrder(list: seq<string>, candidates: seq<string>)
    ensures AddMissing(list, candidates) == list + NewNames(list, candidates)
    decreases |candidates|
  {
    if candidates != [] {
      var init := candidates[..|candidates| - 1];
      var last := candidates[|candidates| - 1];
      assert candidates == init + [last];
      AddMissingInOrder(list, init);
      AddMissingLast(list, init, last);
    } else {
      assert list + [] == list;
    }
  }

  /** One more candidate at the end: the induction step of AddMissingInOrder. */
  lemma AddMissingLast(list: seq<string>, init: seq<string>, last: string)
    requires AddMissing(list, init) == list + NewNames(list, init)
    ensures AddMissing(list, init + [last]) == list + NewNames(list, init + [last])
  {
    AddMissingAppend(list, init, [last]);
    var mid := AddMissing(list, init);
    var tail := if last in list || last in init then [] else [last];
    assert last in mid <==> last in list || last in init;
    AddMissingOne(mid, last);
    NewNamesLast(list, init, last);
    ConcatAssoc(list, NewNames(list, init), tail);
  }

  lemma NewNamesLast(list: seq<string>, init: seq<string>, last: string)
    ensures NewNames(list, init + [last])
         == NewNames(list, init) + (if last in list || last in init then [] else [last])
  {
    assert (init + [last])[..|init|] == init;
  }

  /** checkAchievements (app.js lines 728-745): "Speed Demon" for a solve
      under ten seconds, "First Win" while no game has been completed yet;
      names already held are not added again, and nothing else changes. */
  function CheckAchievements(u: Profile, solveTime: real): (r: Profile)
    ensures r == u.(achievements := r.achievements)
    ensures |r.achievements| >= |u.achievements| && r.achievements[..|u.achievements|] == u.achievements
    ensures forall i :: |u.achievements| <= i < |r.achievements| ==>
              r.achievements[i] == SpeedDemon || r.achievements[i] == FirstWin
    ensures SpeedDemon in r.achievements <==> SpeedDemon in u.achievements || solveTime < 10.0
    ensures FirstWin in r.achievements <==> FirstWin in u.achievements || u.games == 0
    ensures forall a :: a != SpeedDemon && a != FirstWin ==> (a in r.achievements <==> a in u.achievements)
    ensures NoDuplicates(u.achievements) ==> NoDuplicates(r.achievements)
  {
    var speed := if solveTime < 10.0 && SpeedDemon !in u.achievements then [SpeedDemon] else [];
    var first := if u.games == 0 && FirstWin !in u.achievements then [FirstWin] else [];
    u.(achievements := AddMissing(u.achievements, speed + first))
  }

  /** Checking achievements twice with the same solve time adds nothing the second time. */
  lemma CheckAchievementsIdempotent(u: Profile, solveTime: real)
    ensures CheckAchievements(CheckAchievements(u, solveTime), solveTime) == CheckAchievements(u, solveTime)
  {
  }

  /** When both achievements are earned by the same solve, "Speed Demon" is
      appended before "First Win", after every name already held. */
  lemma CheckAchievementsOrder(u: Profile, solveTime: real)
    requires solveTime < 10.0 && u.games == 0
    requires SpeedDemon !in u.achievements && FirstWin !in u.achievements
    ensures CheckAchievements(u, solveTime).achievements == u.achievements + [SpeedDemon, FirstWin]
  {
    AddMissingInOrder(u.achievements, [SpeedDemon, FirstWin]);
    NewNamesLast(u.achievements, [SpeedDemon], FirstWin);
    NewNamesLast(u.achievements, [], SpeedDemon);
    assert [SpeedDemon] + [FirstWin] == [SpeedDemon, FirstWin];
    assert [] + [SpeedDemon] == [SpeedDemon];
  }

  /** "First Win" is granted on any accepted duel solution while no game has been
      completed, so a player who solves one round of a first duel and then
      loses it holds the achievement with no win recorded. */
  lemma FirstWinWithoutAWin(u: Profile, solveTime: real, rules: Rules)
    requires u.games == 0 && u.wins == 0
    ensures var v := EndGameOf(CheckAchievements(u, solveTime), false, rules).user;
      FirstWin in v.achievements && v.wins == 0 && v.games == 1
  {
  }

  // ---------------------------------------------------------------------------
  // End of game
  // ---------------------------------------------------------------------------

  /** calculateRatingChange (app.js lines 820-823): a flat change, gained on a win and lost on a loss. */
  function CalculateRatingChange(won: bool, rules: Rules): (r: int)
    ensures won ==> r == rules.ratingChange
    ensures !won ==> r == -rules.ratingChange
  {
    if won then rules.ratingChange else -rules.ratingChange
  }

  /** endGame (app.js lines 794-818): one more game, one more win or loss,
      the win rate recomputed as a rounded percentage, and the rating moved by
      exactly the flat change, with no floor. */
  function EndGameOf(u: Profile, won: bool, rules: Rules): (r: GameOver)
    ensures r.user.games == u.games + 1
    ensures won ==> r.user.wins == u.wins + 1 && r.user.losses == u.losses
    ensures !won ==> r.user.losses == u.losses + 1 && r.user.wins == u.wins
    ensures r.user.winRate as real - 0.5 <= (r.user.wins as real / r.user.games as real) * 100.0 < r.user.winRate as real + 0.5
    ensures won ==> r.ratingChange == rules.ratingChange
    ensures !won ==> r.ratingChange == -rules.ratingChange
    ensures r.user.rating == u.rating + r.ratingChange
    ensures r.user.username == u.username && r.user.achievements == u.achievements
    ensures r.user.avgTime == u.avgTime && r.user.isGuest == u.isGuest
  {
    var games := u.games + 1;
    var wins := if won then u.wins + 1 else u.wins;
    var losses := if won then u.losses else u.losses + 1;
    var winRate := Percent(wins, games);
    var change := CalculateRatingChange(won, rules);
    GameOver(u.(games := games, wins := wins, losses := losses, winRate := winRate, rating := u.rating + change), change)
  }

  /** endGame keeps a consistent profile consistent: wins and losses still add
      up to games, and the win rate is a percentage. */
  lemma EndGamePreservesStats(u: Profile, won: bool, rules: Rules)
    requires StatsConsistent(u)
    ensures StatsConsistent(EndGameOf(u, won, rules).user)
  {
    var v := EndGameOf(u, won, rules).user;
    PercentInRange(v.wins, v.games);
  }

  /** Nothing in the record stops a late opponent solve once the player has
      won: on a duel the player took 2-1, it still reports a loss. */
  lemma LateOpponentSolveAfterWin(g: Game)
    requires g.Match? && g.playerScore == 2 && g.opponentScore == 1
    ensures OpponentSolved(g, DefaultRules).next == EndGame(false)
    ensures OpponentSolved(g, DefaultRules).game.playerScore == 2
  {
  }

  /** The flat change is symmetric: a win followed by a loss, in either
      order, brings the rating back to where it was. */
  lemma WinAndLossCancel(u: Profile, rules: Rules)
    ensures EndGameOf(EndGameOf(u, true, rules).user, false, rules).user.rating == u.rating
    ensures EndGameOf(EndGameOf(u, false, rules).user, true, rules).user.rating == u.rating
    ensures CalculateRatingChange(true, rules) + CalculateRatingChange(false, rules) == 0
  {
  }

  /** With the built-in rules a loss always costs exactly 32 points, so the
      rating can drop below any floor: a 20-point profile goes to -12. */
  lemma EndGameHasNoFloor(u: Profile)
    requires u.rating == 20
    ensures EndGameOf(u, false, DefaultRules).user.rating == -12
  {
  }
}

=== FILE: game_record.dfy ===
/** The stored game record of game-model.js: the status field with its fixed
    set of values and default, and the pre-save hook that derives the
    duration in seconds from the start and end timestamps. Timestamps are
    milliseconds since the epoch; a missing one is None. */
module GameRecord {
  import opened Common

  /** The values the status field admits. */
  datatype GameStatus = Waiting | InProgress | Completed | Abandoned

  /** The stored spelling of each status. */
  function StatusName(s: GameStatus): (r: string)
    ensures |r| > 0 && AllStatusChars(r)
  {
    match s
    case Waiting => "waiting"
    case InProgress => "in_progress"
    case Completed => "completed"
    case Abandoned => "abandoned"
  }

  /** Stored status names use lower-case letters and '_' only. */
  predicate AllStatusChars(s: string) {
    forall k :: 0 <= k < |s| ==> 'a' <= s[k] <= 'z' || s[k] == '_'
  }

  /** The enum check (game-model.js lines 42-46): a string is accepted exactly
      when it is the name of one of the four statuses. */
  function ParseStatus(s: string): (r: Option<GameStatus>)
    ensures r.Some? ==> StatusName(r.value) == s
  {
    if s == "waiting" then Some(Waiting)
    else if s == "in_progress" then Some(InProgress)
    else if s == "completed" then Some(Completed)
    else if s == "abandoned" then Some(Abandoned)
    else None
  }

  /** Every status survives being written and read back. */
  lemma ParseStatusName(s: GameStatus)
    ensures ParseStatus(StatusName(s)) == Some(s)
  {
  }

  /** Names are distinct, so no two statuses share a stored spelling. */
  lemma StatusNameInjective(a: GameStatus, b: GameStatus)
    ensures StatusName(a) == StatusName(b) <==> a == b
  {
    ParseStatusName(a);
    ParseStatusName(b);
  }

  /** The outcome of validating the status given to a new record. */
  datatype StatusCheck = Valid(status: GameStatus) | Rejected(value: string)

  /** The status of a new record: 'waiting' when none is given, otherwise
      the given value if it is in the enum, else a validation error. */
  function StatusOnCreate(given: Option<string>): (r: StatusCheck)
    ensures given == None ==> r == Valid(Waiting)
    ensures given.Some? ==> (r.Valid? <==> exists s: GameStatus :: StatusName(s) == given.value)
    ensures given.Some? && r.Valid? ==> StatusName(r.status) == given.value
    ensures r.Rejected? ==> r.value == given.value
  {
    match given
    case None => Valid(Waiting)
    case Some(v) =>
      match ParseStatus(v)
      case Some(s) => Valid(s)
      case None =>
        assert forall s: GameStatus :: StatusName(s) != v by {
          forall s: GameStatus ensures StatusName(s) != v {
            ParseStatusName(s);
          }
        }
        Rejected(v)
  }

  /** The fields the hook reads and writes. */
  datatype GameDoc = GameDoc(status: GameStatus, startedAt: Option<int>, endedAt: Option<int>, duration: Option<int>)

  /** A new record: waiting, started now (the Date.now default), not ended, no duration. */
  function NewGame(now: int): (r: GameDoc)
    ensures r.status == Waiting && r.startedAt == Some(now)
    ensures r.endedAt == None && r.duration == None
  {
    GameDoc(StatusOnCreate(None).status, Some(now), None, None)
  }

  /** What the hook leaves: the record to save and how many times it called next. */
  datatype Saved = Saved(doc: GameDoc, nextCalls: nat)

  /** The pre('save') hook (game-model.js lines 75-80). When endedAt was
      modified and both timestamps are present, the duration becomes the
      elapsed milliseconds over 1000, rounded; in every other case it is left
      as it was. Nothing else changes and next is called exactly once. */
  function PreSave(doc: GameDoc, endedAtModified: bool): (r: Saved)
    ensures r.nextCalls == 1
    ensures r.doc == doc.(duration := r.doc.duration)
    ensures endedAtModified && doc.endedAt.Some? && doc.startedAt.Some? ==>
      && r.doc.duration.Some?
      && r.doc.duration.value as real - 0.5 <= (doc.endedAt.value - doc.startedAt.value) as real / 1000.0
      && (doc.endedAt.value - doc.startedAt.value) as real / 1000.0 < r.doc.duration.value as real + 0.5
    ensures !(endedAtModified && doc.endedAt.Some? && doc.startedAt.Some?) ==> r.doc.duration == doc.duration
  {
    var doc' :=
      if endedAtModified && doc.endedAt.Some? && doc.startedAt.Some? then
        doc.(duration := Some(RoundHalfUp((doc.endedAt.value - doc.startedAt.value) as real / 1000.0)))
      else doc;
    Saved(doc', 1)
  }

  /** A game that ends after it started has a non-negative duration within
      half a second of the elapsed time, and saving again without touching
      endedAt keeps that duration. */
  lemma EndedGameDuration(now: int, end: int)
    requires now <= end
    ensures var saved := PreSave(NewGame(now).(endedAt := Some(end)), true).doc;
      && saved.duration.Some? && saved.duration.value >= 0
      && 1000 * saved.duration.value - 500 <= end - now < 1000 * saved.duration.value + 500
      && PreSave(saved, false).doc == saved
  {
    var saved := PreSave(NewGame(now).(endedAt := Some(end)), true).doc;
    var d := saved.duration.value;
    var x := (end - now) as real / 1000.0;
    assert d as real - 0.5 <= x < d as real + 0.5;
    assert x * 1000.0 == (end - now) as real;
    assert 1000.0 * d as real - 500.0 <= (end - now) as real < 1000.0 * d as real + 500.0;
    RoundHalfUpMonotone(0.0, x);
    RoundHalfUpUnique(0.0, 0);
  }
}

=== FILE: hectoc.dfy ===
/** The client's Hectoc solution checker: normalisation of the typed
    expression, the left-to-right digit-order scan against the puzzle, the
    character whitelist in front of the evaluator, and the comparison of the
    evaluated value with 100.

    Evaluation itself (`new Function('return ' + expr)()`) is arbitrary
    JavaScript execution, so it enters the model as a parameter `run` that
    maps an expression to what the evaluation produced. */
module Hectoc {
  import opened Common

  /** The multiplication and division glyphs a player may type. */
  const MultiplySign: char := '\U{00D7}'
  const DivideSign: char := '\U{00F7}'

  const Target: real := 100.0
  const Tolerance: real := 0.001

  /** What evaluating an expression produced: a finite number, a non-finite
      number (NaN or an infinity), or an exception. */
  datatype Evaluation = Number(value: real) | NotFinite | Throws

  // ---------------------------------------------------------------------------
  // Normalisation
  // ---------------------------------------------------------------------------

  /** String.prototype.replace with a global one-character pattern. */
  function ReplaceChar(s: string, from: char, to: char): (r: string)
    ensures |r| == |s|
    ensures forall i :: 0 <= i < |s| ==> r[i] == (if s[i] == from then to else s[i])
  {
    if s == [] then [] else [if s[0] == from then to else s[0]] + ReplaceChar(s[1..], from, to)
  }

  /** `replace(/\s+/g, '')`: deletes every whitespace character. */
  function RemoveSpaces(s: string): (r: string)
    ensures |r| <= |s|
    ensures forall i :: 0 <= i < |r| ==> !IsJsSpace(r[i])
  {
    if s == [] then []
    else
      (if IsJsSpace(s[0]) then [] else [s[0]]) + RemoveSpaces(s[1..])
  }

  /** The normalised expression the checker works on (app.js line 628). */
  function Clean(expression: string): (r: string)
    ensures MultiplySign !in r && DivideSign !in r
    ensures forall i :: 0 <= i < |r| ==> !IsJsSpace(r[i])
    ensures DigitsOf(r) == DigitsOf(expression)
  {
    var a := ReplaceChar(expression, MultiplySign, '*');
    var b := ReplaceChar(a, DivideSign, '/');
    DigitsOfReplace(expression, MultiplySign, '*');
    DigitsOfReplace(a, DivideSign, '/');
    DigitsOfRemoveSpaces(b);
    RemoveSpacesAbsent(b, MultiplySign);
    RemoveSpacesAbsent(b, DivideSign);
    RemoveSpaces(b)
  }

  /** How one character is normalised: the glyphs become ASCII operators, whitespace disappears. */
  function CleanChar(c: char): string {
    if c == MultiplySign then "*"
    else if c == DivideSign then "/"
    else if IsJsSpace(c) then ""
    else [c]
  }

  lemma {:induction false} ReplaceCharAppend(a: string, b: string, from: char, to: char)
    ensures ReplaceChar(a + b, from, to) == ReplaceChar(a, from, to) + ReplaceChar(b, from, to)
  {
  }

  lemma {:induction false} RemoveSpacesAppend(a: string, b: string)
    ensures RemoveSpaces(a + b) == RemoveSpaces(a) + RemoveSpaces(b)
    decreases |a|
  {
    if a != [] {
      assert (a + b)[1..] == a[1..] + b;
      RemoveSpacesAppend(a[1..], b);
    } else {
      assert a + b == b;
    }
  }

  /** Normalisation works character by character: cleaning a concatenation
      cleans each part. */
  lemma CleanAppend(a: string, b: string)
    ensures Clean(a + b) == Clean(a) + Clean(b)
  {
    ReplaceCharAppend(a, b, MultiplySign, '*');
    var a1 := ReplaceChar(a, MultiplySign, '*');
    var b1 := ReplaceChar(b, MultiplySign, '*');
    ReplaceCharAppend(a1, b1, DivideSign, '/');
    RemoveSpacesAppend(ReplaceChar(a1, DivideSign, '/'), ReplaceChar(b1, DivideSign, '/'));
  }

  /** Each single character is normalised as CleanChar says: every `×` becomes
      `*`, every `÷` becomes `/`, whitespace is dropped, the rest is kept. */
  lemma CleanSingle(c: char)
    ensures Clean([c]) == CleanChar(c)
  {
    assert MultiplySign != DivideSign;
    assert !IsJsSpace('*') && !IsJsSpace('/');
  }

  /** Cleaning the whole string is cleaning each character in turn. */
  lemma {:induction false} CleanIsCharwise(s: string)
    ensures s == [] ==> Clean(s) == []
    ensures s != [] ==> Clean(s) == CleanChar(s[0]) + Clean(s[1..])
  {
    if s != [] {
      assert s == [s[0]] + s[1..];
      CleanAppend([s[0]], s[1..]);
      CleanSingle(s[0]);
    }
  }

  lemma {:induction false} ReplaceCharAbsent(s: string, from: char, to: char)
    requires from !in s
    ensures ReplaceChar(s, from, to) == s
  {
  }

  lemma {:induction false} RemoveSpacesAbsent(s: string, c: char)
    requires c !in s
    ensures c !in RemoveSpaces(s)
    decreases |s|
  {
    if s != [] {
      RemoveSpacesAbsent(s[1..], c);
    }
  }

  lemma {:induction false} RemoveSpacesNoSpaces(s: string)
    requires forall i :: 0 <= i < |s| ==> !IsJsSpace(s[i])
    ensures RemoveSpaces(s) == s
    decreases |s|
  {
    if s != [] {
      RemoveSpacesNoSpaces(s[1..]);
      assert s == [s[0]] + s[1..];
    }
  }

  /** Normalising an already normalised expression changes nothing. */
  lemma CleanIdempotent(s: string)
    ensures Clean(Clean(s)) == Clean(s)
  {
    var c := Clean(s);
    ReplaceCharAbsent(c, MultiplySign, '*');
    ReplaceCharAbsent(c, DivideSign, '/');
    RemoveSpacesNoSpaces(c);
  }

  // ---------------------------------------------------------------------------
  // Digit order
  // ---------------------------------------------------------------------------

  /** The digit characters of s, in order. */
  function DigitsOf(s: string): string {
    if s == [] then [] else (if IsDigit(s[0]) then [s[0]] else []) + DigitsOf(s[1..])
  }

  lemma {:induction false} DigitsOfAppend(a: string, b: string)
    ensures DigitsOf(a + b) == DigitsOf(a) + DigitsOf(b)
    decreases |a|
  {
    if a == [] {
      assert a + b == b;
    } else {
      var head := if IsDigit(a[0]) then [a[0]] else [];
      assert (a + b)[0] == a[0];
      assert (a + b)[1..] == a[1..] + b;
      assert DigitsOf(a + b) == head + DigitsOf(a[1..] + b);
      DigitsOfAppend(a[1..], b);
      assert DigitsOf(a) == head + DigitsOf(a[1..]);
    }
  }

  lemma {:induction false} DigitsOfReplace(s: string, from: char, to: char)
    requires !IsDigit(from) && !IsDigit(to)
    ensures DigitsOf(ReplaceChar(s, from, to)) == DigitsOf(s)
    decreases |s|
  {
    if s != [] {
      DigitsOfReplace(s[1..], from, to);
      assert ReplaceChar(s, from, to)[1..] == ReplaceChar(s[1..], from, to);
    }
  }

  lemma {:induction false} DigitsOfRemoveSpaces(s: string)
    ensures DigitsOf(RemoveSpaces(s)) == DigitsOf(s)
    decreases |s|
  {
    if s != [] {
      DigitsOfRemoveSpaces(s[1..]);
      DigitsOfAppend(if IsJsSpace(s[0]) then [] else [s[0]], RemoveSpaces(s[1..]));
    }
  }

  /** What the scan of app.js lines 632-651 accepts: the expression has at
      least as many digits as the puzzle has characters, and its first
      |puzzle| digits spell the puzzle. Later digits are not looked at. */
  predicate OrderMatches(clean: string, puzzle: string) {
    |DigitsOf(clean)| >= |puzzle| && DigitsOf(clean)[..|puzzle|] == puzzle
  }

  /** The scan loop, one iteration per call: `i` walks the cleaned expression,
      `matched` counts puzzle characters matched so far. A digit that is not
      the next puzzle character rejects at once; the loop stops as soon as the
      whole puzzle has been matched or the expression is exhausted. */
  function ScanOrder(clean: string, puzzle: string, i: nat, matched: nat): (ok: bool)
    requires i <= |clean| && matched <= |puzzle|
    requires DigitsOf(clean[..i]) == puzzle[..matched]
    ensures ok <==> OrderMatches(clean, puzzle)
    decreases |clean| - i
  {
    if i < |clean| && matched < |puzzle| then
      assert clean[..i + 1] == clean[..i] + [clean[i]];
      DigitsOfAppend(clean[..i], [clean[i]]);
      assert clean == clean[..i] + clean[i..];
      DigitsOfAppend(clean[..i], clean[i..]);
      if IsDigit(clean[i]) then
        if clean[i] == puzzle[matched] then
          assert puzzle[..matched + 1] == puzzle[..matched] + [puzzle[matched]];
          ScanOrder(clean, puzzle, i + 1, matched + 1)
        else
          assert DigitsOf(clean)[matched] == clean[i];
          false
      else
        ScanOrder(clean, puzzle, i + 1, matched)
    else
      assert clean[..|clean|] == clean;
      DigitsOfAppend(clean[..i], clean[i..]);
      assert clean == clean[..i] + clean[i..];
      assert puzzle[..|puzzle|] == puzzle;
      matched == |puzzle|
  }

  // ---------------------------------------------------------------------------
  // Evaluation
  // ---------------------------------------------------------------------------

  /** The character class `[0-9+\-*\/().^Math.pow, ]` evaluateExpression tests. */
  predicate WhitelistChar(c: char) {
    IsDigit(c) || c in "+-*/().^" || c in "Math.pow, "
  }

  /** `/^[...]+$/`: non-empty and made of whitelisted characters only. */
  predicate Whitelisted(expr: string) {
    |expr| > 0 && forall i :: 0 <= i < |expr| ==> WhitelistChar(expr[i])
  }

  /** evaluateExpression (app.js lines 662-677): anything outside the
      whitelist throws before the evaluator is reached; otherwise the result
      is what the evaluator produced. */
  function EvaluateExpression(expr: string, run: string -> Evaluation): (r: Evaluation)
    ensures !Whitelisted(expr) ==> r == Throws
    ensures r != Throws ==> Whitelisted(expr) && r == run(expr)
    ensures Whitelisted(expr) ==> r == run(expr)
  {
    if Whitelisted(expr) then run(expr) else Throws
  }

  /** `Math.abs(result - 100) < 0.001`, over exact reals. */
  predicate CloseToTarget(v: real) {
    -Tolerance < v - Target < Tolerance
  }

  /** isValidHectocSolution (app.js lines 626-660). */
  function IsValidHectocSolution(expression: string, puzzle: string, run: string -> Evaluation): (ok: bool)
    ensures ok <==>
      && OrderMatches(Clean(expression), puzzle)
      && var e := EvaluateExpression(Clean(expression), run); e.Number? && CloseToTarget(e.value)
    ensures ok ==> |DigitsOf(expression)| >= |puzzle| && DigitsOf(expression)[..|puzzle|] == puzzle
    ensures ok ==> Whitelisted(Clean(expression))
  {
    var clean := Clean(expression);
    if !ScanOrder(clean, puzzle, 0, 0) then false
    else
      match EvaluateExpression(clean, run)
      case Number(v) => CloseToTarget(v)
      case NotFinite => false
      case Throws => false
  }

  /** validateSolution (app.js lines 600-624): a blank entry is not valid. */
  function ValidateSolution(expression: string, puzzle: string, run: string -> Evaluation): (ok: bool)
    ensures AllSpaces(expression) ==> !ok
    ensures ok <==> !AllSpaces(expression) && IsValidHectocSolution(expression, puzzle, run)
  {
    TrimEmptyIffAllSpaces(expression);
    if Trim(expression) == [] then false else IsValidHectocSolution(expression, puzzle, run)
  }

  // ---------------------------------------------------------------------------
  // Worked cases
  // ---------------------------------------------------------------------------

  /** A character that is not whitespace, not a glyph and not in the
      whitelist survives normalisation and makes the whitelist throw, so the
      checker rejects the expression whatever the evaluator would say. */
  lemma RejectsForeignChar(expression: string, puzzle: string, run: string -> Evaluation, c: char)
    requires c in expression
    requires CleanChar(c) == [c] && !WhitelistChar(c)
    ensures !IsValidHectocSolution(expression, puzzle, run)
  {
    CleanKeeps(expression, c);
  }

  lemma {:induction false} CleanKeeps(s: string, c: char)
    requires c in s && CleanChar(c) == [c]
    ensures c in Clean(s)
    decreases |s|
  {
    CleanIsCharwise(s);
    if s[0] != c {
      CleanKeeps(s[1..], c);
    }
  }

  /** Whitespace anywhere in the entry does not change the verdict. */
  lemma SpacesIgnored(a: string, b: string, space: char, puzzle: string, run: string -> Evaluation)
    requires IsJsSpace(space)
    ensures IsValidHectocSolution(a + [space] + b, puzzle, run) == IsValidHectocSolution(a + b, puzzle, run)
  {
    CleanAppend(a + [space], b);
    CleanAppend(a, [space]);
    CleanSingle(space);
    assert Clean(a + [space]) == Clean(a);
    CleanAppend(a, b);
  }

  /** Text with no glyph and no whitespace is already normalised. */
  lemma CleanNoOp(s: string)
    requires MultiplySign !in s && DivideSign !in s
    requires forall i :: 0 <= i < |s| ==> !IsJsSpace(s[i])
    ensures Clean(s) == s
  {
    ReplaceCharAbsent(s, MultiplySign, '*');
    ReplaceCharAbsent(s, DivideSign, '/');
    RemoveSpacesNoSpaces(s);
  }

  /** Already-normalised text is judged on itself: by its digit order, its
      whitelist and the evaluator's value for exactly that text. */
  lemma NormalisedVerdict(e: string, puzzle: string, run: string -> Evaluation)
    requires MultiplySign !in e && DivideSign !in e
    requires forall i :: 0 <= i < |e| ==> !IsJsSpace(e[i])
    ensures IsValidHectocSolution(e, puzzle, run) <==>
      OrderMatches(e, puzzle) && Whitelisted(e) && run(e).Number? && CloseToTarget(run(e).value)
  {
    CleanNoOp(e);
  }

  /** The scan stops once the puzzle is matched, so whatever follows, extra
      digits included, does not affect the order check: `1+2+3+4+5+6+79`
      passes it for puzzle 123456 because `1+2+3+4+5+6` does. */
  lemma OrderIgnoresSuffix(clean: string, extra: string, puzzle: string)
    requires OrderMatches(clean, puzzle)
    ensures OrderMatches(clean + extra, puzzle)
  {
    DigitsOfAppend(clean, extra);
    assert (DigitsOf(clean) + DigitsOf(extra))[..|puzzle|] == DigitsOf(clean)[..|puzzle|];
  }

  /** The built-in reference solutions (app.js lines 34-38), as pairs of a
      puzzle and the solution text the result screen lists for it (app.js
      lines 846-856). */
  const StoredSolutions: seq<(string, string)> := [
    ("123456", "1 + (2 + 3 + 4) \U{00D7} (5 + 6) = 100"),
    ("123456", "(1 + 2 + 3 + 4) \U{00D7} (5 + 6) - 10 = 100"),
    ("123456", "12 \U{00D7} (3 + 4) + 5 + 6 + 1 = 100"),
    ("987654", "98 + 7 - 6 + 5 - 4 = 100"),
    ("987654", "(9 \U{00D7} 8 + 7 + 6) + 5 + 4 = 100"),
    ("246810", "24 \U{00D7} 6 - 8 - 10 - 26 = 100"),
    ("246810", "2 \U{00D7} (46 + 8) + 10 - 8 = 100")
  ]

  /** Every listed reference solution carries a trailing ` = 100`; `=` is not
      whitelisted, so a player who types one exactly as listed is rejected
      whatever the evaluator would say. */
  lemma RejectsStoredSolutionText(run: string -> Evaluation)
    ensures forall k :: 0 <= k < |StoredSolutions| ==>
      !IsValidHectocSolution(StoredSolutions[k].1, StoredSolutions[k].0, run)
  {
    forall k | 0 <= k < |StoredSolutions|
      ensures !IsValidHectocSolution(StoredSolutions[k].1, StoredSolutions[k].0, run)
    {
      var (puzzle, text) := StoredSolutions[k];
      assert text[|text| - 5] == '=';
      RejectsForeignChar(text, puzzle, run, '=');
    }
  }

}

=== FILE: lobby.dfy ===
/** The lobby's pure helpers (game/Lobby.js): the m:ss time format, the
    connection status badge, the quick-match button and the statistics shown
    for the signed-in user. The socket context supplies `connected`,
    `inQueue` and the queue position; they are parameters here. */
module Lobby {
  import opened Common
  import UserModel

  /** formatTime (game/Lobby.js lines 101-106) on whole seconds. A missing
      value or 0 shows "--"; any other number of seconds shows as m:ss. */
  function FormatTime(seconds: Option<int>): (r: string)
    ensures seconds == None || seconds == Some(0) ==> r == "--"
    ensures seconds.Some? && seconds.value > 0 ==> ClockReads(r, seconds.value)
    ensures seconds.Some? && seconds.value < 0 ==> r == MinutesSeconds(seconds.value) && r[0] == '-'
  {
    match seconds
    case None => "--"
    case Some(s) =>
      if s == 0 then "--"
      else if s < 0 then MinutesSeconds(s)
      else MinutesSecondsReads(s); MinutesSeconds(s)
  }

  /** The m:ss text never reads as "--", so a real time and a missing one are
      always told apart, and two positive times show differently. */
  lemma FormatTimeInjective(a: int, b: int)
    requires a > 0 && b > 0
    ensures FormatTime(Some(a)) == FormatTime(Some(b)) <==> a == b
    ensures FormatTime(Some(a)) != "--"
  {
    var ta := FormatTime(Some(a));
    assert |ta| >= 4;
  }

  /** The badge shown by getConnectionStatus. */
  datatype StatusClass = StatusError | StatusWarning | StatusSuccess

  datatype ConnectionStatus = ConnectionStatus(text: string, cls: StatusClass)

  /** getConnectionStatus (game/Lobby.js lines 113-117): a lost connection
      outranks the queue; in the queue the position is shown; otherwise Ready. */
  function GetConnectionStatus(connected: bool, inQueue: bool, queuePosition: int): (r: ConnectionStatus)
    ensures !connected ==> r == ConnectionStatus("Disconnected", StatusError)
    ensures connected && inQueue ==>
      r == ConnectionStatus("In Queue (Position " + IntToString(queuePosition) + ")", StatusWarning)
    ensures connected && !inQueue ==> r == ConnectionStatus("Ready", StatusSuccess)
    ensures r.cls == StatusError <==> !connected
  {
    if !connected then ConnectionStatus("Disconnected", StatusError)
    else if inQueue then ConnectionStatus("In Queue (Position " + IntToString(queuePosition) + ")", StatusWarning)
    else ConnectionStatus("Ready", StatusSuccess)
  }

  /** What a press of the quick-match button does. */
  datatype QuickMatchAction = ShowNotConnected | CallLeaveQueue | CallJoinQueue

  /** handleQuickMatch (game/Lobby.js lines 83-94): an error toast when
      disconnected, otherwise leave the queue when in it and join it when not. */
  function HandleQuickMatch(connected: bool, inQueue: bool): (r: QuickMatchAction)
    ensures r == ShowNotConnected <==> !connected
    ensures r == CallLeaveQueue <==> connected && inQueue
    ensures r == CallJoinQueue <==> connected && !inQueue
  {
    if !connected then ShowNotConnected
    else if inQueue then CallLeaveQueue
    else CallJoinQueue
  }

  /** The quick-match button agrees with the status badge: it joins exactly
      when the badge says Ready and leaves exactly when it shows a position. */
  lemma QuickMatchFollowsStatus(connected: bool, inQueue: bool, queuePosition: int)
    ensures HandleQuickMatch(connected, inQueue) == CallJoinQueue <==>
              GetConnectionStatus(connected, inQueue, queuePosition).cls == StatusSuccess
    ensures HandleQuickMatch(connected, inQueue) == CallLeaveQueue <==>
              GetConnectionStatus(connected, inQueue, queuePosition).cls == StatusWarning
  {
  }

  /** The win rate in the statistics card (game/Lobby.js lines 284-286). */
  function WinRateDisplay(gamesPlayed: nat, gamesWon: nat): (r: int)
    ensures gamesPlayed == 0 ==> r == 0
    ensures gamesPlayed > 0 ==> r as real - 0.5 <= (gamesWon as real / gamesPlayed as real) * 100.0 < r as real + 0.5
  {
    if gamesPlayed > 0 then Percent(gamesWon, gamesPlayed) else 0
  }

  /** The lobby shows the same win rate as the user record's winRate virtual. */
  lemma WinRateDisplayMatchesUserModel(gamesPlayed: nat, gamesWon: nat)
    ensures WinRateDisplay(gamesPlayed, gamesWon) == UserModel.WinRate(gamesPlayed, gamesWon)
  {
    if gamesPlayed > 0 {
      RoundHalfUpUnique((gamesWon as real / gamesPlayed as real) * 100.0, WinRateDisplay(gamesPlayed, gamesWon));
    }
  }

  /** The average solve time in the statistics card (game/Lobby.js lines
      292-294): "--" when there is none or it is 0; otherwise the average is
      rounded first and the rounded seconds go through formatTime, so an
      average under half a second also shows "--". */
  function AvgSolveDisplay(averageSolveTime: Option<real>): (r: string)
    ensures averageSolveTime == None || averageSolveTime == Some(0.0) ==> r == "--"
    ensures averageSolveTime.Some? && averageSolveTime.value != 0.0 ==>
              r == FormatTime(Some(RoundHalfUp(averageSolveTime.value)))
    ensures averageSolveTime.Some? && -0.5 <= averageSolveTime.value < 0.5 ==> r == "--"
    ensures averageSolveTime.Some? && RoundHalfUp(averageSolveTime.value) > 0 ==>
              ClockReads(r, RoundHalfUp(averageSolveTime.value))
    ensures averageSolveTime.Some? && averageSolveTime.value >= 0.5 ==>
              ClockReads(r, RoundHalfUp(averageSolveTime.value))
  {
    match averageSolveTime
    case None => "--"
    case Some(t) => if t == 0.0 then "--" else FormatTime(Some(RoundHalfUp(t)))
  }
}

=== FILE: login.dfy ===
/** The sign-in form of Login.js: field validation per mode, clearing a
    field's error while typing, routing a server failure to a field, and the
    mode switch that resets the form. The authentication calls themselves
    belong to the auth context; their reply is a parameter here. */
module LoginForm {
  import opened Common

  datatype Mode = LoginMode | RegisterMode | GuestMode

  /** The keys of the error object. */
  datatype Field = Username | Email | Password | ConfirmPassword | General

  /** formData. */
  datatype Form = Form(username: string, email: string, password: string, confirmPassword: string)

  /** The error object: a message per field. A key may hold the empty string
      once its field has been edited. */
  type Errors = map<Field, string>

  const EmptyForm: Form := Form("", "", "", "")

  const UsernameRequired: string := "Username is required"
  const UsernameTooShort: string := "Username must be at least 3 characters"
  const UsernameTooLong: string := "Username must be less than 20 characters"
  const EmailInvalid: string := "Please enter a valid email address"
  const PasswordRequired: string := "Password is required"
  const PasswordTooShort: string := "Password must be at least 6 characters"
  const ConfirmRequired: string := "Please confirm your password"
  const PasswordsDiffer: string := "Passwords do not match"
  const UnexpectedError: string := "An unexpected error occurred"

  // ---------------------------------------------------------------------------
  // The e-mail pattern /^[^\s@]+@[^\s@]+\.[^\s@]+$/
  // ---------------------------------------------------------------------------

  /** The class [^\s@]. */
  predicate PartChar(c: char) {
    !IsJsSpace(c) && c != '@'
  }

  predicate AllPartChars(s: string) {
    forall k :: 0 <= k < |s| ==> PartChar(s[k])
  }

  /** The pattern matches with the '@' at index i and the separating '.' at index j. */
  predicate EmailSplitAt(s: string, i: int, j: int) {
    && 0 < i && i + 1 < j && j + 1 < |s|
    && s[i] == '@' && s[j] == '.'
    && AllPartChars(s[..i]) && AllPartChars(s[i + 1..])
  }

  /** emailRegex.test(s). */
  predicate EmailPattern(s: string) {
    exists i, j | 0 <= i < |s| && 0 <= j < |s| :: EmailSplitAt(s, i, j)
  }

  /** Any three non-empty runs of [^\s@] joined as a@b.c match the pattern. */
  lemma EmailPatternOfParts(a: string, b: string, c: string)
    requires |a| > 0 && |b| > 0 && |c| > 0
    requires AllPartChars(a) && AllPartChars(b) && AllPartChars(c)
    ensures EmailPattern(a + "@" + b + "." + c)
  {
    var s := a + "@" + b + "." + c;
    var i, j := |a|, |a| + 1 + |b|;
    assert s[..i] == a;
    assert s[i + 1..] == b + "." + c;
    assert EmailSplitAt(s, i, j);
  }

  /** Every string the pattern matches is such a join a@b.c. */
  lemma EmailPatternParts(s: string) returns (a: string, b: string, c: string)
    requires EmailPattern(s)
    ensures |a| > 0 && |b| > 0 && |c| > 0
    ensures AllPartChars(a) && AllPartChars(b) && AllPartChars(c)
    ensures s == a + "@" + b + "." + c
  {
    var i, j :| 0 <= i < |s| && 0 <= j < |s| && EmailSplitAt(s, i, j);
    a, b, c := s[..i], s[i + 1..j], s[j + 1..];
    var rest := s[i + 1..];
    assert b == rest[..j - i - 1] && c == rest[j - i..];
    assert s == a + "@" + b + "." + c by {
      assert s == s[..i] + [s[i]] + s[i + 1..j] + [s[j]] + s[j + 1..];
    }
  }

  /** A matching address holds no whitespace and exactly one '@'. */
  lemma EmailPatternOneAt(s: string, k: int)
    requires EmailPattern(s) && 0 <= k < |s|
    ensures !IsJsSpace(s[k])
    ensures s[k] == '@' <==> (forall m :: 0 <= m < |s| && m != k ==> s[m] != '@')
  {
    var i, j :| 0 <= i < |s| && 0 <= j < |s| && EmailSplitAt(s, i, j);
    assert forall m :: 0 <= m < i ==> s[m] == s[..i][m];
    assert forall m :: i < m < |s| ==> s[m] == s[i + 1..][m - i - 1];
  }

  // ---------------------------------------------------------------------------
  // validateForm
  // ---------------------------------------------------------------------------

  /** The username message, if any: required when blank after trimming,
      then a length between 3 and 20 inclusive. */
  function UsernameError(username: string): (r: Option<string>)
    ensures r == Some(UsernameRequired) <==> AllSpaces(username)
    ensures r == Some(UsernameTooShort) <==> !AllSpaces(username) && |username| < 3
    ensures r == Some(UsernameTooLong) <==> !AllSpaces(username) && |username| > 20
    ensures r == None <==> !AllSpaces(username) && 3 <= |username| <= 20
  {
    TrimEmptyIffAllSpaces(username);
    if Trim(username) == [] then Some(UsernameRequired)
    else if |username| < 3 then Some(UsernameTooShort)
    else if |username| > 20 then Some(UsernameTooLong)
    else None
  }

  /** The e-mail message, if any: only when registering with a non-empty address. */
  function EmailError(mode: Mode, email: string): (r: Option<string>)
    ensures r.Some? <==> mode == RegisterMode && email != "" && !EmailPattern(email)
    ensures r.Some? ==> r.value == EmailInvalid
  {
    if mode == RegisterMode && email != "" && !EmailPattern(email) then Some(EmailInvalid) else None
  }

  /** The password message, if any: outside guest mode a password of at least 6 characters is required. */
  function PasswordError(mode: Mode, password: string): (r: Option<string>)
    ensures mode == GuestMode ==> r == None
    ensures mode != GuestMode ==> (r == Some(PasswordRequired) <==> password == "")
    ensures mode != GuestMode ==> (r == Some(PasswordTooShort) <==> 0 < |password| < 6)
    ensures r == None <==> mode == GuestMode || |password| >= 6
  {
    if mode == GuestMode then None
    else if password == "" then Some(PasswordRequired)
    else if |password| < 6 then Some(PasswordTooShort)
    else None
  }

  /** The confirmation message, if any: only when registering, the
      confirmation must be present and equal to the password. */
  function ConfirmError(mode: Mode, password: string, confirmPassword: string): (r: Option<string>)
    ensures mode != RegisterMode ==> r == None
    ensures mode == RegisterMode ==> (r == Some(ConfirmRequired) <==> confirmPassword == "")
    ensures mode == RegisterMode ==> (r == Some(PasswordsDiffer) <==> confirmPassword != "" && password != confirmPassword)
    ensures r == None <==> mode != RegisterMode || (confirmPassword != "" && password == confirmPassword)
  {
    if mode != RegisterMode then None
    else if confirmPassword == "" then Some(ConfirmRequired)
    else if password != confirmPassword then Some(PasswordsDiffer)
    else None
  }

  /** Adds key := message when a message is present. */
  function Put(errors: Errors, key: Field, message: Option<string>): (r: Errors)
    ensures message.Some? ==> r == errors[key := message.value]
    ensures message.None? ==> r == errors
    ensures key in r <==> key in errors || message.Some?
    ensures message.Some? ==> r[key] == message.value
    ensures forall k :: k != key ==> (k in r <==> k in errors)
    ensures forall k :: k != key && k in errors ==> r[k] == errors[k]
  {
    if message.Some? then errors[key := message.value] else errors
  }

  datatype Validation = Validation(errors: Errors, ok: bool)

  /** validateForm (Login.js lines 35-75): one message per failing field, none
      for the general key, and the form passes exactly when no message was produced. */
  function ValidateForm(mode: Mode, form: Form): (r: Validation)
    ensures General !in r.errors
    ensures Username in r.errors <==> UsernameError(form.username).Some?
    ensures Username in r.errors ==> Some(r.errors[Username]) == UsernameError(form.username)
    ensures Email in r.errors <==> EmailError(mode, form.email).Some?
    ensures Email in r.errors ==> r.errors[Email] == EmailInvalid
    ensures Password in r.errors <==> PasswordError(mode, form.password).Some?
    ensures Password in r.errors ==> Some(r.errors[Password]) == PasswordError(mode, form.password)
    ensures ConfirmPassword in r.errors <==> ConfirmError(mode, form.password, form.confirmPassword).Some?
    ensures ConfirmPassword in r.errors ==>
              Some(r.errors[ConfirmPassword]) == ConfirmError(mode, form.password, form.confirmPassword)
    ensures r.ok <==> r.errors == map[]
  {
    Collect(UsernameError(form.username), EmailError(mode, form.email),
            PasswordError(mode, form.password), ConfirmError(mode, form.password, form.confirmPassword))
  }

  /** The messages of the four field checks gathered in one map, in the order
      validateForm runs them; the form passes when the map has no key. */
  function Collect(user: Option<string>, email: Option<string>, password: Option<string>, confirm: Option<string>): (r: Validation)
    ensures General !in r.errors
    ensures Username in r.errors <==> user.Some?
    ensures Username in r.errors ==> Some(r.errors[Username]) == user
    ensures Email in r.errors <==> email.Some?
    ensures Email in r.errors ==> Some(r.errors[Email]) == email
    ensures Password in r.errors <==> password.Some?
    ensures Password in r.errors ==> Some(r.errors[Password]) == password
    ensures ConfirmPassword in r.errors <==> confirm.Some?
    ensures ConfirmPassword in r.errors ==> Some(r.errors[ConfirmPassword]) == confirm
    ensures r.ok <==> r.errors == map[]
  {
    var e1 := Put(map[], Username, user);
    var e2 := Put(e1, Email, email);
    var e3 := Put(e2, Password, password);
    var e4 := Put(e3, ConfirmPassword, confirm);
    Validation(e4, |e4| == 0)
  }

  /** The form passes exactly when: the username is non-blank with 3 to 20
      characters; outside guest mode the password has at least 6; and when
      registering, a non-empty e-mail matches the pattern and the
      confirmation repeats the password. */
  predicate FormAcceptable(mode: Mode, form: Form) {
    && !AllSpaces(form.username) && 3 <= |form.username| <= 20
    && (mode != GuestMode ==> |form.password| >= 6)
    && (mode == RegisterMode ==> (form.email == "" || EmailPattern(form.email)))
    && (mode == RegisterMode ==> form.confirmPassword != "" && form.password == form.confirmPassword)
  }

  /** validateForm (Login.js lines 35-75) passes exactly the acceptable forms. */
  lemma ValidateFormAccepts(mode: Mode, form: Form)
    ensures ValidateForm(mode, form).ok <==> FormAcceptable(mode, form)
  {
    var v := ValidateForm(mode, form);
    if v.ok {
      assert Username !in v.errors && Email !in v.errors;
      assert Password !in v.errors && ConfirmPassword !in v.errors;
    } else {
      var k :| k in v.errors;
    }
  }

  /** In guest mode only the username is checked. */
  lemma GuestChecksOnlyUsername(form: Form)
    ensures ValidateForm(GuestMode, form).errors.Keys <= {Username}
  {
  }

  // ---------------------------------------------------------------------------
  // Editing, submitting, switching mode
  // ---------------------------------------------------------------------------

  /** Writes the edited input into the form. */
  function SetField(form: Form, field: Field, value: string): (r: Form)
    requires field != General
    ensures field == Username ==> r == form.(username := value)
    ensures field == Email ==> r == form.(email := value)
    ensures field == Password ==> r == form.(password := value)
    ensures field == ConfirmPassword ==> r == form.(confirmPassword := value)
  {
    match field
    case Username => form.(username := value)
    case Email => form.(email := value)
    case Password => form.(password := value)
    case ConfirmPassword => form.(confirmPassword := value)
  }

  datatype Edited = Edited(form: Form, errors: Errors)

  /** handleInputChange (Login.js lines 19-33): the input's value is stored,
      and if its field shows a (non-empty) message that message becomes the
      empty string; no other field or message changes. */
  function HandleInputChange(form: Form, errors: Errors, field: Field, value: string): (r: Edited)
    requires field != General
    ensures r.form == SetField(form, field, value)
    ensures r.errors.Keys == errors.Keys
    ensures forall k :: k in errors && k != field ==> r.errors[k] == errors[k]
    ensures field in errors ==> r.errors[field] == ""
  {
    var cleared := if field in errors && errors[field] != "" then errors[field := ""] else errors;
    Edited(SetField(form, field, value), cleared)
  }

  /** Which field a server failure message belongs to: the first of
      username, email and password that it mentions, otherwise the general slot. */
  function RouteMessage(message: string): (r: Field)
    ensures r != ConfirmPassword
    ensures r == Username <==> Contains(message, "username")
    ensures r == Email <==> !Contains(message, "username") && Contains(message, "email")
    ensures r == Password <==> !Contains(message, "username") && !Contains(message, "email") && Contains(message, "password")
    ensures r == General <==> !Contains(message, "username") && !Contains(message, "email") && !Contains(message, "password")
  {
    if Contains(message, "username") then Username
    else if Contains(message, "email") then Email
    else if Contains(message, "password") then Password
    else General
  }

  /** A message naming the username goes to the username field, whatever else it says. */
  lemma UsernameMessageWins(prefix: string, suffix: string)
    ensures RouteMessage(prefix + "username" + suffix) == Username
  {
    var m := prefix + "username" + suffix;
    assert OccursAt(m, "username", |prefix|) by {
      assert m[|prefix|..|prefix| + 8] == "username";
    }
  }

  /** The auth context's answer: a result object, or a thrown error. */
  datatype Reply = Result(success: bool, message: string) | Threw

  /** The request handleSubmit makes for each mode. */
  datatype Request =
    | LoginRequest(username: string, password: string)
    | RegisterRequest(username: string, email: Option<string>, password: string)
    | GuestRequest(username: string)

  datatype Submitted = Submitted(errors: Errors, request: Option<Request>)

  /** The request sent for a mode; an empty e-mail is sent as undefined. */
  function RequestFor(mode: Mode, form: Form): (r: Request)
    ensures mode == LoginMode ==> r == LoginRequest(form.username, form.password)
    ensures mode == RegisterMode ==> r.RegisterRequest? && r.username == form.username && r.password == form.password
    ensures mode == RegisterMode ==> (r.email == None <==> form.email == "")
    ensures mode == RegisterMode && form.email != "" ==> r.email == Some(form.email)
    ensures mode == GuestMode ==> r == GuestRequest(form.username)
  {
    match mode
    case LoginMode => LoginRequest(form.username, form.password)
    case RegisterMode => RegisterRequest(form.username, if form.email == "" then None else Some(form.email), form.password)
    case GuestMode => GuestRequest(form.username)
  }

  /** handleSubmit (Login.js lines 77-119). An invalid form shows its messages
      and sends nothing. Otherwise the request for the mode is sent; a thrown
      error shows the general message, a failure with a message shows it
      under the field it mentions alone, and anything else leaves no message. */
  function HandleSubmit(mode: Mode, form: Form, reply: Reply): (r: Submitted)
    ensures !ValidateForm(mode, form).ok ==> r == Submitted(ValidateForm(mode, form).errors, None)
    ensures ValidateForm(mode, form).ok ==> r.request == Some(RequestFor(mode, form))
    ensures ValidateForm(mode, form).ok && reply.Threw? ==> r.errors == map[General := UnexpectedError]
    ensures ValidateForm(mode, form).ok && reply.Result? && !reply.success && reply.message != "" ==>
              r.errors == map[RouteMessage(reply.message) := reply.message]
    ensures ValidateForm(mode, form).ok && reply.Result? && (reply.success || reply.message == "") ==>
              r.errors == map[]
  {
    var v := ValidateForm(mode, form);
    if !v.ok then Submitted(v.errors, None)
    else
      var errors := match reply
        case Threw => map[General := UnexpectedError]
        case Result(success, message) =>
          if !success && message != "" then map[RouteMessage(message) := message] else v.errors;
      Submitted(errors, Some(RequestFor(mode, form)))
  }

  /** A request goes out exactly for the forms that meet the field rules, and
      it is the mode's request; a rejected form always shows a message, and
      an accepted form answered with success shows none. */
  lemma SubmitSendsOnlyAcceptableForms(mode: Mode, form: Form, reply: Reply)
    ensures HandleSubmit(mode, form, reply).request
         == (if FormAcceptable(mode, form) then Some(RequestFor(mode, form)) else None)
    ensures !FormAcceptable(mode, form) ==> HandleSubmit(mode, form, reply).errors != map[]
    ensures FormAcceptable(mode, form) && reply.Result? && reply.success ==>
              HandleSubmit(mode, form, reply).errors == map[]
  {
    ValidateFormAccepts(mode, form);
  }

  datatype Screen = Screen(mode: Mode, form: Form, errors: Errors)

  /** switchMode with resetForm (Login.js lines 121-134): the new mode with
      every field empty and no messages. */
  function SwitchMode(newMode: Mode): (r: Screen)
    ensures r.mode == newMode
    ensures r.form.username == "" && r.form.email == "" && r.form.password == "" && r.form.confirmPassword == ""
    ensures r.errors == map[]
  {
    Screen(newMode, EmptyForm, map[])
  }

  /** A freshly reset form never passes: the username is required, and
      outside guest mode so is the password. */
  lemma FreshFormRejected(newMode: Mode)
    ensures var s := SwitchMode(newMode);
      && !ValidateForm(s.mode, s.form).ok
      && ValidateForm(s.mode, s.form).errors[Username] == UsernameRequired
      && (newMode != GuestMode ==> ValidateForm(s.mode, s.form).errors[Password] == PasswordRequired)
  {
    var s := SwitchMode(newMode);
    assert AllSpaces(s.form.username);
  }
}

=== FILE: matchmaking.dfy ===
/** The client's matchmaking queue in app.js (lines 401-463): joining and
    leaving, the toggle that alternates them, the queue clock, and the
    interval callback that declares a match once the target time is reached.

    The clock reading, the random draw that places the target time and the
    handle that setInterval hands out are parameters. */
module Matchmaking {
  import opened Common

  /** A handle returned by setInterval; browsers hand out positive integers. */
  type TimerHandle = n: nat | n > 0 witness 1

  /** this.matchmaking. A null field is None. */
  datatype Queue = Queue(
    inQueue: bool,
    queueStartTime: Option<int>,
    targetMatchTime: Option<real>,
    queueInterval: Option<TimerHandle>)

  /** The state before any queueing. */
  const Idle: Queue := Queue(false, None, None, None)

  /** What the interval callback leaves behind: the queue, the queue clock
      text, and whether a match was found (so that startGame follows). */
  datatype Tick = Tick(queue: Queue, clock: string, matchFound: bool)

  /** joinQueue (app.js lines 409-431): in the queue from now on, with a match
      due 3 to 8 seconds later and the polling interval running. */
  function JoinQueue(q: Queue, now: int, draw: real, handle: TimerHandle): (r: Queue)
    requires 0.0 <= draw < 1.0
    ensures r.inQueue && r.queueStartTime == Some(now) && r.queueInterval == Some(handle)
    ensures r.targetMatchTime.Some?
    ensures now as real + 3000.0 <= r.targetMatchTime.value < now as real + 8000.0
  {
    Queue(true, Some(now), Some(now as real + (draw * 5000.0 + 3000.0)), Some(handle))
  }

  /** leaveQueue (app.js lines 432-447): out of the queue, no target time and
      no running interval; the start time is kept. */
  function LeaveQueue(q: Queue): (r: Queue)
    ensures !r.inQueue && r.targetMatchTime == None && r.queueInterval == None
    ensures r.queueStartTime == q.queueStartTime
  {
    // the clear is guarded by `if (queueInterval)`; every handle is truthy, so a set one is always nulled
    Queue(false, q.queueStartTime, None, None)
  }

  /** toggleQueue (app.js lines 401-407): leaves when queued, joins otherwise. */
  function ToggleQueue(q: Queue, now: int, draw: real, handle: TimerHandle): (r: Queue)
    requires 0.0 <= draw < 1.0
    ensures r.inQueue == !q.inQueue
    ensures q.inQueue ==> r == LeaveQueue(q)
    ensures !q.inQueue ==> r == JoinQueue(q, now, draw, handle)
  {
    if q.inQueue then LeaveQueue(q) else JoinQueue(q, now, draw, handle)
  }

  /** Toggling twice returns to the idle state: out of the queue with no
      target time and no interval. */
  lemma ToggleTwiceLeaves(q: Queue, now1: int, now2: int, draw1: real, draw2: real, h1: TimerHandle, h2: TimerHandle)
    requires 0.0 <= draw1 < 1.0 && 0.0 <= draw2 < 1.0 && !q.inQueue
    ensures var r := ToggleQueue(ToggleQueue(q, now1, draw1, h1), now2, draw2, h2);
      r == Idle.(queueStartTime := Some(now1))
  {
  }

  /** Leaving twice is the same as leaving once. */
  lemma LeaveQueueIdempotent(q: Queue)
    ensures LeaveQueue(LeaveQueue(q)) == LeaveQueue(q)
  {
  }

  /** updateQueueTime (app.js lines 449-454): whole seconds since joining,
      shown as minutes and two-digit seconds. A missing start time reads as 0,
      as `Date.now() - null` does. */
  function QueueClock(q: Queue, now: int): (s: string)
    ensures ElapsedSeconds(q, now) >= 0 ==> ClockReads(s, ElapsedSeconds(q, now))
    ensures ElapsedSeconds(q, now) < 0 ==> s == MinutesSeconds(ElapsedSeconds(q, now)) && s[0] == '-'
  {
    var elapsed := ElapsedSeconds(q, now);
    if elapsed < 0 then MinutesSeconds(elapsed)
    else MinutesSecondsReads(elapsed); MinutesSeconds(elapsed)
  }

  /** Math.floor((Date.now() - queueStartTime) / 1000). */
  function ElapsedSeconds(q: Queue, now: int): (e: int)
    ensures 1000 * e <= now - q.queueStartTime.NullAs(0) < 1000 * e + 1000
  {
    (now - q.queueStartTime.NullAs(0)) / 1000
  }

  /** One run of the interval callback (app.js lines 420-427 with matchFound,
      lines 456-463): the clock is refreshed, and once the target time has
      come the queue is left and a match is reported. A missing target reads
      as 0, as `Date.now() >= null` does. */
  function QueueTick(q: Queue, now: int): (r: Tick)
    ensures r.matchFound <==> now as real >= q.targetMatchTime.NullAs(0.0)
    ensures r.matchFound ==> r.queue == LeaveQueue(q)
    ensures !r.matchFound ==> r.queue == q
    ensures r.clock == QueueClock(q, now)
  {
    var clock := QueueClock(q, now);
    if now as real >= q.targetMatchTime.NullAs(0.0) then Tick(LeaveQueue(q), clock, true)
    else Tick(q, clock, false)
  }

  /** After joining, no match is found before 3 seconds and one is always
      found by 8 seconds; the queue is left when it is. */
  lemma MatchFoundWithinEightSeconds(q: Queue, start: int, draw: real, handle: TimerHandle, now: int)
    requires 0.0 <= draw < 1.0
    ensures var joined := JoinQueue(q, start, draw, handle);
      && (now < start + 3000 ==> !QueueTick(joined, now).matchFound)
      && (now >= start + 8000 ==> QueueTick(joined, now).matchFound && !QueueTick(joined, now).queue.inQueue)
  {
  }
}

=== FILE: user_model.dfy ===
/** The rating rules of the stored user (game/user-model.js): the ELO update
    with its floor of 100, and the win-rate and average-solve-time virtuals.

    The floating-point power `10^((opponent - own) / 400)` is not computed
    here: callers pass its value, `tenPow`, which is positive for every pair of
    ratings and equals 1 exactly when the ratings are equal. */
module UserModel {
  import opened Common

  /** The floor below which no stored rating may fall. */
  const MinRating: int := 100

  /** The K-factor used when the caller gives none. */
  const DefaultKFactor: int := 32

  /** The stored rating after an update, and the change the method returns. */
  datatype RatingUpdate = RatingUpdate(rating: int, change: int)

  /** The ELO expected score 1 / (1 + 10^((opponent - own) / 400)): strictly
      between 0 and 1, one half exactly when the ratings are equal. */
  function ExpectedScore(tenPow: real): (e: real)
    requires tenPow > 0.0
    ensures 0.0 < e < 1.0
    ensures e * (1.0 + tenPow) == 1.0
    ensures e == 0.5 <==> tenPow == 1.0
  {
    1.0 / (1.0 + tenPow)
  }

  /** The actual score: 1 for the result 'win', 0 for any other string. */
  function ActualScore(gameResult: string): (a: real)
    ensures a == 1.0 <==> gameResult == "win"
    ensures a == 0.0 <==> gameResult != "win"
  {
    if gameResult == "win" then 1.0 else 0.0
  }

  /** updateRating (game/user-model.js lines 121-130). The change is
      K * (actual - expected) rounded to the nearest integer; the stored rating
      moves by the change but never below 100, while the change returned is
      the unclamped one. */
  function UpdateRating(rating: int, tenPow: real, gameResult: string, kFactor: int): (r: RatingUpdate)
    requires tenPow > 0.0
    ensures r.change as real - 0.5 <= kFactor as real * (ActualScore(gameResult) - ExpectedScore(tenPow)) < r.change as real + 0.5
    ensures r.rating >= MinRating
    ensures rating + r.change >= MinRating ==> r.rating == rating + r.change
    ensures rating + r.change < MinRating ==> r.rating == MinRating
  {
    var change := RoundHalfUp(kFactor as real * (ActualScore(gameResult) - ExpectedScore(tenPow)));
    var raised := rating + change;
    RatingUpdate(if raised > MinRating then raised else MinRating, change)
  }

  /** Scaling by a non-negative K keeps a fraction of one between 0 and K. */
  lemma ScaleUnit(k: real, x: real)
    requires k >= 0.0 && 0.0 <= x <= 1.0
    ensures 0.0 <= k * x <= k
  {
    assert k * x <= k * 1.0;
  }

  /** Scaling by a non-negative K keeps order. */
  lemma ScaleMonotone(k: real, x: real, y: real)
    requires k >= 0.0 && x <= y
    ensures k * x <= k * y
  {
    assert k * y - k * x == k * (y - x);
  }

  /** A win never costs points and gains at most K. */
  lemma WinChangeInRange(rating: int, tenPow: real, kFactor: int)
    requires tenPow > 0.0 && kFactor >= 0
    ensures 0 <= UpdateRating(rating, tenPow, "win", kFactor).change <= kFactor
  {
    var k := kFactor as real;
    var x := k * (ActualScore("win") - ExpectedScore(tenPow));
    ScaleUnit(k, 1.0 - ExpectedScore(tenPow));
    RoundHalfUpMonotone(0.0, x);
    RoundHalfUpMonotone(x, k);
    RoundHalfUpUnique(0.0, 0);
    RoundHalfUpUnique(k, kFactor);
  }

  /** A loss never gains points and costs at most K. */
  lemma LossChangeInRange(rating: int, tenPow: real, gameResult: string, kFactor: int)
    requires tenPow > 0.0 && kFactor >= 0 && gameResult != "win"
    ensures -kFactor <= UpdateRating(rating, tenPow, gameResult, kFactor).change <= 0
  {
    var k := kFactor as real;
    var e := ExpectedScore(tenPow);
    var x := k * (ActualScore(gameResult) - e);
    ScaleUnit(k, e);
    assert x == -(k * e);
    RoundHalfUpMonotone(x, 0.0);
    RoundHalfUpMonotone(-k, x);
    RoundHalfUpUnique(0.0, 0);
    RoundHalfUpUnique(-k, -kFactor);
  }

  /** Between equal ratings with the default K of 32, a win is worth +16 and a loss -16. */
  lemma EqualRatingsSixteen(rating: int, gameResult: string)
    ensures gameResult == "win" ==> UpdateRating(rating, 1.0, gameResult, DefaultKFactor).change == 16
    ensures gameResult != "win" ==> UpdateRating(rating, 1.0, gameResult, DefaultKFactor).change == -16
  {
    assert ExpectedScore(1.0) == 0.5;
    RoundHalfUpUnique(16.0, 16);
    RoundHalfUpUnique(-16.0, -16);
  }

  /** The expected score falls as the opponent's power term grows. */
  lemma ExpectedScoreDecreasing(t1: real, t2: real)
    requires 0.0 < t1 <= t2
    ensures ExpectedScore(t2) <= ExpectedScore(t1)
  {
    var e1 := ExpectedScore(t1);
    var e2 := ExpectedScore(t2);
    assert e2 * (1.0 + t1) <= e2 * (1.0 + t2) == 1.0 == e1 * (1.0 + t1);
    assert (e2 - e1) * (1.0 + t1) <= 0.0;
  }

  /** The stronger the opponent (the larger 10^(difference / 400)), the larger
      the change, for a win and for a loss alike. */
  lemma ChangeMonotoneInOpponent(rating: int, t1: real, t2: real, gameResult: string, kFactor: int)
    requires 0.0 < t1 <= t2 && kFactor >= 0
    ensures UpdateRating(rating, t1, gameResult, kFactor).change <= UpdateRating(rating, t2, gameResult, kFactor).change
  {
    var e1 := ExpectedScore(t1);
    var e2 := ExpectedScore(t2);
    ExpectedScoreDecreasing(t1, t2);
    var a := ActualScore(gameResult);
    var k := kFactor as real;
    ScaleMonotone(k, a - e1, a - e2);
    RoundHalfUpMonotone(k * (a - e1), k * (a - e2));
  }

  /** Seen from both sides of one game (the opponent's power term is the
      reciprocal), the winner's gain and the loser's loss cancel except for
      Math.round's rounding of halves upwards, which can leave one point over. */
  lemma ExchangeNearlyZeroSum(ratingA: int, ratingB: int, tenPow: real, kFactor: int)
    requires tenPow > 0.0
    ensures var gain := UpdateRating(ratingA, tenPow, "win", kFactor).change;
            var loss := UpdateRating(ratingB, 1.0 / tenPow, "loss", kFactor).change;
            gain + loss == 0 || gain + loss == 1
  {
    var eA := ExpectedScore(tenPow);
    var eB := ExpectedScore(1.0 / tenPow);
    assert eA + eB == 1.0 by {
      assert eB * (1.0 + 1.0 / tenPow) == 1.0;
      assert eB * (tenPow + 1.0) == tenPow by {
        assert (1.0 + 1.0 / tenPow) * tenPow == tenPow + 1.0;
      }
      assert eA * (1.0 + tenPow) == 1.0;
      assert (eA + eB) * (1.0 + tenPow) == 1.0 + tenPow;
    }
    var x := kFactor as real * (1.0 - eA);
    assert kFactor as real * (0.0 - eB) == -x;
  }

  /** The winRate virtual (game/user-model.js lines 90-93): 0 before any game,
      otherwise the rounded percentage of games won. */
  function WinRate(gamesPlayed: nat, wins: nat): (r: int)
    ensures gamesPlayed == 0 ==> r == 0
    ensures gamesPlayed > 0 ==>
      r as real - 0.5 <= (wins as real / gamesPlayed as real) * 100.0 < r as real + 0.5
  {
    if gamesPlayed == 0 then 0 else Percent(wins, gamesPlayed)
  }

  /** A user who has won no more games than they played has a win rate in 0..100. */
  lemma WinRateInRange(gamesPlayed: nat, wins: nat)
    requires wins <= gamesPlayed
    ensures 0 <= WinRate(gamesPlayed, wins) <= 100
  {
    if gamesPlayed > 0 {
      PercentInRange(wins, gamesPlayed);
    }
  }

  /** The avgSolveTime virtual (game/user-model.js lines 96-99): 0 before any
      game, otherwise the total solve time per game, rounded. */
  function AvgSolveTime(gamesPlayed: nat, totalSolveTime: real): (r: int)
    ensures gamesPlayed == 0 ==> r == 0
    ensures gamesPlayed > 0 ==>
      r as real - 0.5 <= totalSolveTime / gamesPlayed as real < r as real + 0.5
  {
    if gamesPlayed == 0 then 0 else RoundHalfUp(totalSolveTime / gamesPlayed as real)
  }

  /** If every game took between lo and hi, so does the rounded average (up to rounding of the bounds). */
  lemma AvgSolveTimeBounded(gamesPlayed: nat, totalSolveTime: real, lo: real, hi: real)
    requires gamesPlayed > 0
    requires lo * gamesPlayed as real <= totalSolveTime <= hi * gamesPlayed as real
    ensures RoundHalfUp(lo) <= AvgSolveTime(gamesPlayed, totalSolveTime) <= RoundHalfUp(hi)
  {
    var n := gamesPlayed as real;
    var avg := totalSolveTime / n;
    assert lo <= avg <= hi by {
      assert avg * n == totalSolveTime;
    }
    RoundHalfUpMonotone(lo, avg);
    RoundHalfUpMonotone(avg, hi);
  }
}
